=== FILE: README.md ===
# Stock monitor and track tagger, modelled in Dafny

This project models the pure logic of two scripts of a small Python tool
repository.

`canadian-tire-check.py` checks, for each configured product, how many units
each configured store has. It drives a browser to do this. Per store it:

- opens the store selector, with up to three attempts;
- types the store's search text;
- finds the first result card whose name contains the store's city key;
- reads the card's stock tag as a count, as 0 for "out of stock", or as -1
  for "could not tell".

It saves the readings as a timestamped JSON snapshot. It then compares the two
newest snapshots and mails the stores whose stock went up.

`set_title_from_filename.py` walks a folder of audio files. It derives a
title and a track number from each file name (`"03. Song.mp3"` gives track
`"03"` and title `"Song"`). It writes them as tags.

The model is functional: immutable sequences and pure functions, with two
small loops (the selector retries and the per-store loop), and a third in the
folder walk. The browser is an oracle:

- what each selector attempt meets is a `seq<Attempt>`;
- what the search overlay shows is a function from the typed text to an
  `Overlay` of `Card` records.

Python dicts are association lists in insertion order (`Dict.Dict`), so the
order in which the results, the increases and the alert lines appear is part
of the model. A snapshot directory is a dict from file name to decoded
contents. The clock is a `stamp` parameter.

Modules:

| module | file | what it holds |
|---|---|---|
| `Wrappers` | wrappers.dfy | `Option` |
| `Text` | text.dfy | `str.strip`, `str.lower`, `\s`, `\d`, `re.search(r"(\d+)")`, `int`, `str`, `split`, `join`, `in` on ASCII text |
| `Dict` | dict.dfy | dicts as association lists: lookup, assignment, subsequences |
| `Stock` | stock.dfy | the stock-tag reading, the match key, the card scan |
| `Selector` | selector.dfy | the store-selector retry loop |
| `Snapshots` | snapshots.dfy | choosing the two newest snapshots, the diff |
| `Alert` | alert.dfy | the alert message, the recipient list |
| `Monitor` | monitor.dfy | the per-product pass: read all stores, save, compare, alert |
| `Tracks` | tracks.dfy | `os.path.splitext`, the track-prefix regex, the audio filter, the tags written |

Two points where the code and its comments disagree; the model follows the
code:

- The comment above the store table (canadian-tire-check.py:39) reads
  "search_query → label". The loop at line 349 unpacks each entry as
  `store_label, search_query`. So the key is the label, which names the
  result and gives the match key, and the value is the text typed into the
  search (`Monitor.Stores`).
- The comment on the track regex (set_title_from_filename.py:8) speaks of a
  leading `"01. "`. The pattern also accepts no space after the dot, white
  space before the digits, and any number of digits
  (`Tracks.MatchTrackPrefixOf`).

The label table has two stores whose match key is the same city,
"vancouver". Each is scanned in the overlay of its own search text.

## Model

| member | source | states |
|---|---|---|
| `Stock.ParseStock` | canadian-tire-check.py:188-205 | every stock tag reads as a count, 0 or the sentinel -1, never below -1 |
| `Stock.ParseStockOutOfStock` | canadian-tire-check.py:188-194 | a tag containing "out of stock" in any letter case reads 0, even when it also holds digits |
| `Stock.MarkerSurvivesNormalizing` | canadian-tire-check.py:188-192 | stripping the tag's white-space frame never creates or destroys an occurrence of the marker |
| `Stock.ParseStockFirstRun` | canadian-tire-check.py:196-201 | without the marker, a tag `p + d + q` reads as `d` in base 10 when `p` has no digit, `d` is a non-empty digit run and `q` does not continue it |
| `Stock.ParseStockNoDigits` | canadian-tire-check.py:196-205 | without the marker and without any digit the tag reads -1 |
| `Stock.ParseStockPrintedCount` | canadian-tire-check.py:196-201 | a count printed in decimal inside a tag reads back as that count |
| `Stock.MatchKey` | canadian-tire-check.py:142 | the match key has no comma, no upper-case letter and no white space at either end |
| `Stock.MatchKeyBeforeComma` | canadian-tire-check.py:142 | for a label `p,rest` with no comma in `p`, the key is `p` stripped and lower-cased; the rest is ignored |
| `Stock.MatchKeyWithoutComma` | canadian-tire-check.py:142 | a label without a comma gives the whole label, stripped and lower-cased |
| `Stock.ScanCards` | canadian-tire-check.py:167-208 | the scan reads at least -1, and a reading other than -1 comes from the first card whose stripped, lower-cased name contains the key, a card that has a stock tag |
| `Stock.ScanStopsAtFirstMatch` | canadian-tire-check.py:167-205 | the first qualifying card decides: the result is its tag's reading, or -1 when it has no tag, whatever later cards hold; nameless cards never qualify |
| `Stock.ScanWithoutMatch` | canadian-tire-check.py:207-208 | when no card qualifies the result is -1 |
| `Stock.ScanDecides` | canadian-tire-check.py:167-208 | the scan reads the first qualifying card, and -1 when none qualifies |
| `Stock.Resolve` | canadian-tire-check.py:131-165 | a suggestion list, filtered list or card list that does not appear gives -1; once all three appear, the reading is that of the first card whose name contains the store key, and -1 when no card qualifies |
| `Selector.OpenStoreSelector` | canadian-tire-check.py:57-94 | the selector is reported open exactly when one of the first three attempts opens it; it stops at the first such attempt; attempts with no trigger or an exception are used up; three failures give false; the trigger chosen is always the last one |
| `Snapshots.Sort` | canadian-tire-check.py:221 | the listing is sorted in string order and is a permutation of the names |
| `Snapshots.SelectNewestPair` | canadian-tire-check.py:221-226 | fewer than two names give nothing; otherwise the pair is the greatest name and the greatest of the remaining names |
| `Snapshots.NewestPairUnique` | canadian-tire-check.py:221-226 | the newest pair is determined by the names alone |
| `Snapshots.SelectionIgnoresListingOrder` | canadian-tire-check.py:221 | the order in which the directory lists its files does not change which two are chosen |
| `Snapshots.LoadSnapshots` | canadian-tire-check.py:220-233 | nothing is loaded exactly when the directory has fewer than two files |
| `Snapshots.LoadSnapshotsReadsNewestPair` | canadian-tire-check.py:225-233 | what is loaded is the contents of the second-newest and the newest file, and no other file |
| `Snapshots.Diff` | canadian-tire-check.py:235-254 | a store is reported exactly when its new reading is not negative, it has an old reading that is not negative, and the new one is strictly higher; each entry holds the old and new readings; entries keep the new snapshot's order and keys are distinct |
| `Alert.ComposeAlert` | canadian-tire-check.py:297-311 | no message exactly when nothing increased; otherwise it is from the sender to the recipients with the product's subject, and its To header, read back as a recipient setting, gives the recipients again |
| `Alert.AlertBodyLines` | canadian-tire-check.py:300-305 | the body, read line by line, is the header naming the product followed by one line per increase, in order |
| `Alert.RecipientsRoundTrip` | canadian-tire-check.py:37 | reading the To header (the recipients joined with ", ", line 310) back as a recipient setting gives the recipients again |
| `Monitor.StoresTable` | canadian-tire-check.py:40-47 | the configured store labels are distinct |
| `Monitor.ReadStore` | canadian-tire-check.py:353-361 | a store reads -1 when the selector does not open, and otherwise the reading of the overlay shown for its search text |
| `Monitor.CheckStores` | canadian-tire-check.py:345-362 | there is exactly one reading per configured store label, in table order; it is -1 when the selector does not open, and otherwise the reading of the overlay for that store's search text; a selector failure records -1 and does not stop later stores |
| `Monitor.FinishPass` | canadian-tire-check.py:370-391 | after the pass the snapshot directory holds the readings under the stamp's name and every other file unchanged; a mail goes out only when at least two snapshots exist |
| `Monitor.FirstPassMailsNothing` | canadian-tire-check.py:373-393 | a pass with no earlier snapshot mails nothing |
| `Monitor.LaterPassComparesWithPrevious` | canadian-tire-check.py:374-391 | a pass whose file name sorts after all earlier ones compares its readings with the newest earlier snapshot, and mails only when both snapshots are non-empty |
| `Monitor.NewestAfterAppend` | canadian-tire-check.py:221-226 | a new name sorting after all others becomes the newest, and the old newest becomes the second-newest |
| `Monitor.CheckProduct` | canadian-tire-check.py:336-391 | one product's pass records one reading per store, stores them as the new snapshot and then saves, compares and mails as `Monitor.FinishPass` does; with no earlier snapshot it mails nothing |
| `Monitor.CheckConfiguredProduct` | canadian-tire-check.py:19-47 | a pass of a configured product over the configured store table gives one reading per configured store label, in table order: -1 when the store's selector does not open, otherwise the reading of the overlay shown for its search text; the outcome is the save, compare and mail of those readings |
| `Tracks.SplitExt` | set_title_from_filename.py:13 | the stem and the extension concatenate back to the name; a non-empty extension is one dot followed by non-dots, after a stem that is not only dots |
| `Tracks.SplitExtOf` | set_title_from_filename.py:13 | a stem that is not only dots, followed by an extension, splits back into exactly that stem and extension, so earlier dots stay in the stem |
| `Tracks.SplitExtWithoutDot` | set_title_from_filename.py:13 | a name without a dot has no extension |
| `Tracks.MatchTrackPrefix` | set_title_from_filename.py:9 | a match gives a non-empty all-digit track and a title that does not start with white space |
| `Tracks.MatchTrackPrefixOf` | set_title_from_filename.py:9-18 | every stem that is white space, digits, a dot, then a rest matches, with those digits as track and the rest without its leading white space as title |
| `Tracks.MatchTrackPrefixFrom` | set_title_from_filename.py:9-18 | every match arises from such a stem |
| `Tracks.NoMatchWithoutDot` | set_title_from_filename.py:9-21 | digits followed by anything other than a dot or another digit give no match |
| `Tracks.NoMatchWithoutDigits` | set_title_from_filename.py:9-21 | a stem that does not start with a digit after its leading white space gives no match |
| `Tracks.ParseFilename` | set_title_from_filename.py:11-23 | a parsed track is non-empty and all digits; without one the title is the whole stem; with one the title does not start with white space |
| `Tracks.ParseFilenameOfStem` | set_title_from_filename.py:11-23 | when the name has an extension, only the stem before it is matched, and without a match the title is that whole stem |
| `Tracks.ParseFilenameRoundTrip` | set_title_from_filename.py:9-23 | a name written as digits, a dot, any white space, a title not starting with white space and .mp3, .wav or .flac parses back into those digits and that title; dots inside the title stay in it |
| `Tracks.ParseFilenameDigitsWithoutDot` | set_title_from_filename.py:14-21 | digits followed by a character that is neither a dot nor a digit give no track, and the title is the whole stem |
| `Tracks.AudioSuffixCut` | set_title_from_filename.py:35-40 | a name that is a stem (not only dots) plus .mp3, .wav or .flac in any letter case passes the filter, and the title is parsed from that stem |
| `Tracks.AudioFileSuffix` | set_title_from_filename.py:35-40 | every name that passes the filter is a stem plus an audio extension, which is cut off unless the stem is only dots |
| `Tracks.KindOf` | set_title_from_filename.py:44-82 | a file is given a container kind exactly when it passes the audio filter: MP3 exactly for a lower-cased `.mp3` ending, WAV for `.wav`, FLAC for `.flac` |
| `Tracks.FramesFor` | set_title_from_filename.py:44-86 | the title is always written, under `TIT2` for MP3 and WAV and `title` for FLAC; the track tag, `TRCK` or `tracknumber` likewise, is written exactly when a track number was parsed, and holds that number |
| `Tracks.AudioFilesInListingOrder` | set_title_from_filename.py:34-37 | the files processed are taken from the listing in listing order |
| `Tracks.AudioFilesExactly` | set_title_from_filename.py:34-37 | a file is processed exactly when it is listed and its lower-cased name ends in an audio extension |
| `Tracks.PlanFolder` | set_title_from_filename.py:34-90 | the walk plans one entry per audio file of the listing, in order, each with its frames, and counts them; names it skips may be anything |
| `Text.FirstDigitRun` | canadian-tire-check.py:197 | a run found is non-empty and all digits; none is found exactly when the text has no digit |
| `Text.FirstDigitRunOf` | canadian-tire-check.py:197 | the leftmost maximal digit run is the one found |
| `Text.DecimalValueOfNatToString` | canadian-tire-check.py:199 | `int` of `str(n)` is `n` |
| `Text.SplitJoin` | canadian-tire-check.py:305 | splitting a joined text on the separator gives back the parts |
| `Text.JoinSplit` | canadian-tire-check.py:37 | joining the pieces of a split with the separator gives back the text |
| `Text.StripFrame` | canadian-tire-check.py:176 | `strip` removes exactly the white space around a text that has none at its ends |
| `Dict.Put` | canadian-tire-check.py:356 | assignment stores the value under the key, leaves every other key's value alone, and appends a new key at the end |
| `Dict.LookupEntry` | canadian-tire-check.py:238 | in a dict, looking up an entry's key finds that entry's value |

## Left out

- Playwright: launching the browser, page loads, locators, scrolling, clicks,
  typing, and every wait and timeout. Each store visit is an oracle
  (`Monitor.StoreVisit`). A time-out of one of the three guarded waits
  (lines 133, 146-148 and 155-157) is a `false` in the `Overlay`. An
  exception while locating the selector triggers is a `Raised` attempt; an
  exception after the last trigger is chosen (lines 74-84) is an attempt whose
  last trigger does not open the selector, so the trigger is recorded as
  chosen, not as clicked.
- Exceptions outside the selector and the three guarded waits. Every other page
  call is assumed to return: the product page load and its 30-second wait
  (lines 346-347), the navigation in the store loop (line 351), `click`, `fill`
  and `keyboard.type` on the search box (lines 125-127), the suggestion click
  (line 138), `cards.count()` (line 164), `name_el.count()` (line 172),
  `stock_el.count()` (line 184) and `inner_text()` (lines 176 and 188). In the program an exception from any of them leaves `main`,
  so no snapshot is saved and no later store or product is checked; the model
  gives every store a reading.
- `Stock.ParseStock`: `int()` at line 199 raises on a digit run longer than
  the 4300-digit conversion limit of CPython 3.11 and later, which ends the
  run; the model reads the value of any digit run.
- `click_first_suggestion`: it is never called, and it uses a name it never
  defines.
- `normalize_quantity`: it is never called, and its meaning rests on
  Python's `int()` parsing of signs, white space and underscores.
- The SMTP conversation, STARTTLS, login and MIME encoding: the alert is the
  message as a value (`Alert.Message`). The `.env` file and environment
  variables are not read: the sender and the recipient setting are parameters.
- File and JSON input and output. A snapshot file is its decoded contents.
  JSON that does not decode, non-snapshot files in the folder, and write
  errors are not modelled.
- The CSV exports `update_google_sheet` and `append_history` (the latter is
  commented out in `main`), `print_increases`, printing and logging.
- `datetime.now()`: the snapshot name's stamp is a parameter. Its fixed-width
  format is not modelled, so that its string order follows time is a
  premise (`Monitor.LaterPassComparesWithPrevious` takes it as a requirement).
- The product loop in `main` beyond one product: products do not share
  state except the page, and each has its own snapshot folder, so one pass
  (`Monitor.CheckProduct`) is the unit.
- mutagen: reading and writing ID3, WAVE and FLAC tags, creating a missing
  ID3 header, skipping unreadable WAV files, and errors while tagging.
  `Tracks.PlanFolder` computes the frames written. Its count equals the
  number of audio files, as it does when no tag operation fails.
- `input()` for the folder path and the folder check; rename-traditional-chinese.py
  entirely (a call into a converter library and `os.rename`).
- Text outside 7-bit ASCII. `\s`, `\d`, `str.lower()` and `str.strip()` are
  modelled with their ASCII meaning. The parsing entry points require ASCII
  text, and the names of the audio files tagged also require no newline
  (where `$` and `.` in the track regex behave differently) and no path
  separator (names come from `os.listdir`). The names the walk skips may be
  anything: no character outside ASCII lower-cases into an audio ending.
- `Stock.ParseStock`: its own contract states only the range of the result.
  What the reading is comes from the lemmas about it
  (`Stock.ParseStockOutOfStock`, `Stock.ParseStockFirstRun`,
  `Stock.ParseStockNoDigits`).

=== FILE: alert.dfy ===
/** The stock alert e-mail (`send_email_alert` in canadian-tire-check.py) and
    the recipient list it is addressed to. Only the message is modelled; the
    SMTP conversation is not. */
module Alert {
  import opened Wrappers
  import opened Text
  import opened Dict
  import opened Snapshots

  datatype Message = Message(
    sender: string,            // the From header and the SMTP envelope sender
    to: string,                // the To header
    subject: string,
    body: string,
    recipients: seq<string>)   // the SMTP envelope recipients

  function Header(product: string): string {
    "New Stock Arrivals for " + product + ":"
  }

  function Subject(product: string): string {
    "Canadian Tire Stock Alert \U{2013} " + product
  }

  /** `- store: old → new` */
  function IncreaseLine(entry: (string, (int, int))): string {
    "- " + entry.0 + ": " + IntToString(entry.1.0) + " \U{2192} " + IntToString(entry.1.1)
  }

  /** The body's lines: the header, then one line per increase in the order of
      the increases. */
  function BodyLines(product: string, increases: Increases): seq<string> {
    [Header(product)] + seq(|increases|, i requires 0 <= i < |increases| => IncreaseLine(increases[i]))
  }

  /** The message to send, or none when nothing increased (then no mail server
      is contacted). Its To header lists the recipients so that reading it as a
      recipient setting gives them back. */
  function ComposeAlert(sender: string, recipients: seq<string>, increases: Increases, product: string): (r: Option<Message>)
    ensures r.None? <==> |increases| == 0
    ensures r.Some? ==> r.value.sender == sender && r.value.recipients == recipients
    ensures r.Some? ==> r.value.subject == Subject(product)
    ensures r.Some? && AllAddresses(recipients) ==> ParseRecipients(r.value.to) == recipients
  {
    if |increases| == 0 then None
    else
      var to := Join(", ", recipients);
      assert AllAddresses(recipients) ==> ParseRecipients(to) == recipients by {
        if AllAddresses(recipients) {
          RecipientsRoundTrip(recipients);
        }
      }
      Some(Message(sender, to, Subject(product), Join("\n", BodyLines(product, increases)), recipients))
  }

  /** Read back line by line, the body is the header naming the product
      followed by exactly one line per increase, in order. */
  lemma AlertBodyLines(sender: string, recipients: seq<string>, increases: Increases, product: string)
    requires |increases| > 0
    requires NoNewline(product)
    requires forall i :: 0 <= i < |increases| ==> NoNewline(increases[i].0)
    ensures var lines := Split(ComposeAlert(sender, recipients, increases, product).value.body, '\n');
            |lines| == |increases| + 1
            && lines[0] == Header(product)
            && forall i :: 0 <= i < |increases| ==> lines[i + 1] == IncreaseLine(increases[i])
  {
    var lines := BodyLines(product, increases);
    forall i | 0 <= i < |lines| ensures '\n' !in lines[i] {
      if i == 0 {
        HeaderOneLine(product);
      } else {
        IncreaseOneLine(increases[i - 1]);
      }
    }
    SplitJoin(lines, '\n');
  }

  lemma HeaderOneLine(product: string)
    requires NoNewline(product)
    ensures NoNewline(Header(product))
  {
    assert Header(product) == "New Stock Arrivals for " + product + ":";
  }

  lemma IncreaseOneLine(entry: (string, (int, int)))
    requires NoNewline(entry.0)
    ensures NoNewline(IncreaseLine(entry))
  {
    var before, after := IntToString(entry.1.0), IntToString(entry.1.1);
    assert IncreaseLine(entry) == "- " + entry.0 + ": " + before + " \U{2192} " + after;
  }

  // ---------------------------------------------------------------------------
  // Recipients

  /** The recipient list read from its comma-separated setting: each piece
      stripped, empty pieces dropped. */
  function ParseRecipients(raw: string): seq<string> {
    CleanAddresses(Split(raw, ','))
  }

  function CleanAddresses(parts: seq<string>): seq<string> {
    if |parts| == 0 then []
    else
      var address := Strip(parts[0]);
      (if |address| > 0 then [address] else []) + CleanAddresses(parts[1..])
  }

  /** An address as the recipient list holds it. */
  predicate IsAddress(a: string) {
    |a| > 0 && IsAscii(a) && IsStripped(a) && ',' !in a
  }

  predicate AllAddresses(recipients: seq<string>) {
    forall i :: 0 <= i < |recipients| ==> IsAddress(recipients[i])
  }

  /** The recipients joined with ", " read back as a recipient setting give
      the recipients again. */
  lemma RecipientsRoundTrip(recipients: seq<string>)
    requires AllAddresses(recipients)
    ensures ParseRecipients(Join(", ", recipients)) == recipients
  {
    CleanAddressesAfterSpace([], recipients);
    assert [] + Join(", ", recipients) == Join(", ", recipients);
  }

  lemma {:induction false} CleanAddressesAfterSpace(w: string, recipients: seq<string>)
    requires AllSpace(w)
    requires forall i :: 0 <= i < |recipients| ==> IsAddress(recipients[i])
    ensures CleanAddresses(Split(w + Join(", ", recipients), ',')) == recipients
    decreases |recipients|
  {
    if |recipients| == 0 {
      assert w + Join(", ", recipients) == w;
      SplitWhole(w, ',');
      StripAll(w);
    } else if |recipients| == 1 {
      CleanLastAddress(w, recipients[0]);
      assert w + Join(", ", recipients) == w + recipients[0];
    } else {
      var a := recipients[0];
      var rest := recipients[1..];
      var tail := " " + Join(", ", rest);
      JoinCommaCons(w, recipients);
      AddressesTail(recipients);
      calc {
        CleanAddresses(Split(w + Join(", ", recipients), ','));
        CleanAddresses(Split((w + a) + [','] + tail, ','));
        { CleanFirstAddress(w, a, tail); }
        [a] + CleanAddresses(Split(tail, ','));
        { CleanAddressesAfterSpace(" ", rest); }
        [a] + rest;
        recipients;
      }
    }
  }

  lemma AddressesTail(recipients: seq<string>)
    requires |recipients| > 0
    requires forall i :: 0 <= i < |recipients| ==> IsAddress(recipients[i])
    ensures forall i :: 0 <= i < |recipients| - 1 ==> IsAddress(recipients[1..][i])
  {
  }

  lemma JoinCommaCons(w: string, recipients: seq<string>)
    requires |recipients| >= 2
    ensures w + Join(", ", recipients) == (w + recipients[0]) + [','] + (" " + Join(", ", recipients[1..]))
  {
  }

  lemma CleanLastAddress(w: string, a: string)
    requires AllSpace(w) && IsAddress(a)
    ensures CleanAddresses(Split(w + a, ',')) == [a]
  {
    assert ',' !in w + a;
    SplitWhole(w + a, ',');
    StripFrame(w, a, []);
    assert w + a + [] == w + a;
  }

  lemma CleanFirstAddress(w: string, a: string, tail: string)
    requires AllSpace(w) && IsAddress(a)
    ensures CleanAddresses(Split((w + a) + [','] + tail, ',')) == [a] + CleanAddresses(Split(tail, ','))
  {
    assert ',' !in w + a;
    SplitAfter(w + a, ',', tail);
    StripFrame(w, a, []);
    assert w + a + [] == w + a;
    var rest := Split(tail, ',');
    assert ([w + a] + rest)[1..] == rest;
  }
}

=== FILE: dict.dfy ===
/** Python dictionaries with string keys, as association lists in insertion order, so that the
    order in which a loop visits the entries is part of the model. */
module Dict {
  import opened Wrappers

  type Dict<V> = seq<(string, V)>

  function Keys<V>(d: Dict<V>): seq<string> {
    seq(|d|, i requires 0 <= i < |d| => d[i].0)
  }

  lemma KeysAppend<V>(d: Dict<V>, k: string, v: V)
    ensures Keys(d + [(k, v)]) == Keys(d) + [k]
  {
  }

  /** Every key appears once: what a Python dict guarantees. */
  predicate DistinctKeys<V>(d: Dict<V>) {
    forall i, j :: 0 <= i < j < |d| ==> d[i].0 != d[j].0
  }

  lemma KeysCons<V>(d: Dict<V>)
    requires |d| > 0
    ensures Keys(d) == [d[0].0] + Keys(d[1..])
  {
  }

  /** `d.get(k)`: the value stored under `k`, if any. */
  function Lookup<V>(d: Dict<V>, k: string): (r: Option<V>)
    ensures r.Some? <==> k in Keys(d)
    ensures r.Some? ==> (k, r.value) in d
  {
    if |d| == 0 then None
    else
      KeysCons(d);
      if d[0].0 == k then Some(d[0].1) else Lookup(d[1..], k)
  }

  /** In a dict, the entry at position `i` is what a lookup of its key finds. */
  lemma {:induction false} LookupEntry<V>(d: Dict<V>, i: int)
    requires DistinctKeys(d)
    requires 0 <= i < |d|
    ensures Lookup(d, d[i].0) == Some(d[i].1)
  {
    if i > 0 {
      LookupEntry(d[1..], i - 1);
    }
  }

  /** `d.get(k, default)`. */
  function Get<V>(d: Dict<V>, k: string, default: V): V {
    Lookup(d, k).GetOr(default)
  }

  /** The assignment `d[k] = v`: an existing key keeps its position, a new key
      goes to the end. */
  function Put<V>(d: Dict<V>, k: string, v: V): (r: Dict<V>)
    ensures Lookup(r, k) == Some(v)
    ensures forall k' :: k' != k ==> Lookup(r, k') == Lookup(d, k')
    ensures Keys(r) == if k in Keys(d) then Keys(d) else Keys(d) + [k]
    ensures k !in Keys(d) ==> r == d + [(k, v)]
  {
    if |d| == 0 then [(k, v)]
    else
      KeysCons(d);
      if d[0].0 == k then
        KeysCons([(k, v)] + d[1..]);
        [(k, v)] + d[1..]
      else
        var rest := Put(d[1..], k, v);
        KeysCons([d[0]] + rest);
        [d[0]] + rest
  }

  /** Assignment keeps a dict's keys distinct. */
  lemma PutKeepsDistinct<V>(d: Dict<V>, k: string, v: V)
    requires DistinctKeys(d)
    ensures DistinctKeys(Put(d, k, v))
  {
    var r := Put(d, k, v);
    forall i, j | 0 <= i < j < |r| ensures r[i].0 != r[j].0 {
      assert Keys(r)[i] == r[i].0 && Keys(r)[j] == r[j].0;
      if k !in Keys(d) {
        if j == |d| {
          assert r[i] == d[i];
          assert Keys(d)[i] == d[i].0;
        }
      } else {
        assert Keys(d)[i] == r[i].0 && Keys(d)[j] == r[j].0;
        assert d[i].0 == Keys(d)[i] && d[j].0 == Keys(d)[j];
      }
    }
  }

  /** Two dicts with the same key at every position have the same keys. */
  lemma SameKeys<V, W>(a: Dict<V>, b: Dict<W>)
    requires |a| == |b|
    requires forall i :: 0 <= i < |a| ==> a[i].0 == b[i].0
    ensures Keys(a) == Keys(b)
    ensures DistinctKeys(a) <==> DistinctKeys(b)
  {
    assert forall i :: 0 <= i < |a| ==> Keys(a)[i] == Keys(b)[i];
  }

  /** `a` is `b` with some entries left out, order kept. */
  predicate IsSubsequence<T(==)>(a: seq<T>, b: seq<T>) {
    |a| == 0 || (|b| > 0 && ((a[0] == b[0] && IsSubsequence(a[1..], b[1..])) || IsSubsequence(a, b[1..])))
  }

  /** Dropping one more entry at the end keeps a subsequence. */
  lemma {:induction false} SubsequenceAppendRight<T>(a: seq<T>, b: seq<T>, y: T)
    requires IsSubsequence(a, b)
    ensures IsSubsequence(a, b + [y])
  {
    if |a| > 0 {
      assert (b + [y])[1..] == b[1..] + [y];
      if a[0] == b[0] && IsSubsequence(a[1..], b[1..]) {
        SubsequenceAppendRight(a[1..], b[1..], y);
      } else {
        SubsequenceAppendRight(a, b[1..], y);
      }
    }
  }

  /** Keeping one more entry at the end keeps a subsequence. */
  lemma {:induction false} SubsequenceAppendBoth<T>(a: seq<T>, b: seq<T>, x: T)
    requires IsSubsequence(a, b)
    ensures IsSubsequence(a + [x], b + [x])
    decreases |b|
  {
    if |b| > 0 {
      assert (b + [x])[1..] == b[1..] + [x];
    }
    if |a| == 0 {
      if |b| > 0 {
        assert IsSubsequence(a, b[1..]);
        SubsequenceAppendBoth(a, b[1..], x);
      } else {
        assert IsSubsequence(([] + [x])[1..], ([] + [x])[1..]);
      }
    } else {
      assert (a + [x])[1..] == a[1..] + [x];
      if a[0] == b[0] && IsSubsequence(a[1..], b[1..]) {
        SubsequenceAppendBoth(a[1..], b[1..], x);
      } else {
        SubsequenceAppendBoth(a, b[1..], x);
      }
    }
  }
}

=== FILE: monitor.dfy ===
/** One monitoring pass for one product (the body of the product loop in
    `main` of canadian-tire-check.py): read every store, save the readings as
    a snapshot, compare the two newest snapshots and mail the increases. The
    browser is an oracle per store, the clock is the `stamp` parameter and the
    file system is a `Directory`. */
module Monitor {
  import opened Wrappers
  import opened Text
  import opened Dict
  import opened Stock
  import opened Selector
  import opened Snapshots
  import opened Alert

  /** A monitored product: its display name, its product page and the
      directory that holds its snapshot history. */
  datatype Product = Product(name: string, url: string, snapshotDir: string)

  const Products: seq<Product> := [
    Product("Car Culture", "https://www.canadiantire.ca/en/pdp/0508182p.html",
            "G:\\canadian-tire\\car-culture-history"),
    Product("Team Transport", "https://www.canadiantire.ca/en/pdp/0508495p.html",
            "G:\\canadian-tire\\team-transport-history")
  ]

  /** The stores, store label to the text typed into the store search. The
      label is the key: it names the results and gives the match key. */
  const Stores: Dict<string> := [
    ("Vancouver, SW Marine, BC", "Southwest Marine Drive, Vancouver, BC"),
    ("Richmond, BC", "Richmond, BC"),
    ("Cambie & 7th, BC", "Cambie Street, Vancouver, BC"),
    ("Vancouver, Grandview & Boundary, BC", "Grandview Hwy, Vancouver, BC"),
    ("Burnaby South, BC", "Southeast Marine Drive, Burnaby, BC"),
    ("North Vancouver Main, BC", "north vancouver")
  ]

  /** The store labels are distinct, so the table is a dict. */
  lemma StoresTable()
    ensures DistinctKeys(Stores)
  {
    var heads := seq(|Stores|, i requires 0 <= i < |Stores| => (Stores[i].0[0], |Stores[i].0|));
    assert heads == [('V', 24), ('R', 12), ('C', 16), ('V', 35), ('B', 17), ('N', 24)];
    forall i, j | 0 <= i < j < |Stores| ensures Stores[i].0 != Stores[j].0 {
      assert heads[i] != heads[j];
    }
  }

  // ---------------------------------------------------------------------------
  // Reading every store

  /** What the page does while one store is checked: what each attempt to open
      the store selector meets, and what the search overlay shows for the text
      typed into it. */
  datatype StoreVisit = StoreVisit(attempts: seq<Attempt>, respond: string -> Overlay)

  /** The page offers at least the selector attempts made, and the texts it
      shows are ASCII. */
  predicate ValidVisit(store: string, query: string, visit: StoreVisit) {
    |visit.attempts| >= MaxAttempts && IsAscii(store) && CardsAscii(visit.respond(query).cards)
  }

  /** The reading a store gets: -1 when the store selector does not open, else
      what the overlay for its search text resolves to. */
  predicate IsStoreReading(store: string, query: string, visit: StoreVisit, q: int)
    requires ValidVisit(store, query, visit)
  {
    if SelectorOpens(visit.attempts) then q == Resolve(store, visit.respond(query)) else q == Unknown
  }

  /** Reads one store: opens the store selector and, when it opens, resolves
      the overlay shown for the store's search text. */
  method ReadStore(store: string, query: string, visit: StoreVisit) returns (q: int)
    requires ValidVisit(store, query, visit)
    ensures IsStoreReading(store, query, visit, q)
    ensures q >= Unknown
  {
    var isOpen, _ := OpenStoreSelector(visit.attempts);
    q := Unknown;
    if isOpen {
      q := Resolve(store, visit.respond(query));
    }
  }

  /** Every store of the table comes with a valid visit. */
  predicate ValidVisits(stores: Dict<string>, visits: seq<StoreVisit>) {
    |visits| == |stores| && forall i :: 0 <= i < |stores| ==> ValidVisit(stores[i].0, stores[i].1, visits[i])
  }

  /** `results` holds the readings of the first stores of the table, in table
      order. */
  predicate Recorded(stores: Dict<string>, visits: seq<StoreVisit>, results: Snapshot)
    requires ValidVisits(stores, visits)
  {
    && |results| <= |stores|
    && (forall j :: 0 <= j < |results| ==> results[j].0 == stores[j].0)
    && (forall j :: 0 <= j < |results| ==>
          IsStoreReading(stores[j].0, stores[j].1, visits[j], results[j].1) && results[j].1 >= Unknown)
  }

  /** Recording the next store's reading keeps the readings in table order. */
  lemma RecordNext(stores: Dict<string>, visits: seq<StoreVisit>, results: Snapshot, q: int)
    requires ValidVisits(stores, visits) && Recorded(stores, visits, results)
    requires |results| < |stores|
    requires var k := |results|; IsStoreReading(stores[k].0, stores[k].1, visits[k], q) && q >= Unknown
    ensures Recorded(stores, visits, results + [(stores[|results|].0, q)])
  {
    var k := |results|;
    var r := results + [(stores[k].0, q)];
    forall j | 0 <= j < |r|
      ensures r[j].0 == stores[j].0
      ensures IsStoreReading(stores[j].0, stores[j].1, visits[j], r[j].1) && r[j].1 >= Unknown
    {
      if j < k {
        assert r[j] == results[j];
        assert IsStoreReading(stores[j].0, stores[j].1, visits[j], results[j].1);
      } else {
        assert r[j] == (stores[k].0, q);
      }
    }
  }

  /** Checks the stores in table order and records one reading per store
      label, in the same order. */
  method CheckStores(stores: Dict<string>, visits: seq<StoreVisit>) returns (results: Snapshot)
    requires DistinctKeys(stores)
    requires ValidVisits(stores, visits)
    ensures Keys(results) == Keys(stores)
    ensures DistinctKeys(results)
    ensures forall i :: 0 <= i < |results| ==>
              IsStoreReading(stores[i].0, stores[i].1, visits[i], results[i].1)
    ensures forall i :: 0 <= i < |results| ==> results[i].1 >= Unknown
  {
    results := [];
    while |results| < |stores|
      invariant Recorded(stores, visits, results)
      decreases |stores| - |results|
    {
      var k := |results|;
      var q := ReadStore(stores[k].0, stores[k].1, visits[k]);
      NextLabelIsNew(stores, results);
      RecordNext(stores, visits, results, q);
      results := Put(results, stores[k].0, q);
    }
    SameKeys(results, stores);
  }

  /** While the loop has recorded the first labels of a table with distinct
      labels, the next label is not recorded yet. */
  lemma NextLabelIsNew(stores: Dict<string>, results: Snapshot)
    requires DistinctKeys(stores)
    requires |results| < |stores|
    requires forall j :: 0 <= j < |results| ==> results[j].0 == stores[j].0
    ensures stores[|results|].0 !in Keys(results)
  {
    forall j | 0 <= j < |results| ensures Keys(results)[j] != stores[|results|].0 {
      assert results[j].0 == stores[j].0;
    }
  }

  // ---------------------------------------------------------------------------
  // Saving, comparing and alerting

  /** The snapshot directory after the pass, and the alert mailed, if any. */
  datatype PassOutcome = PassOutcome(dir: Directory, alert: Option<Message>)

  /** Every file of a well-formed directory holds a dict. */
  lemma ReadFileDistinct(dir: Directory, name: string)
    requires WellFormedDirectory(dir) && name in Keys(dir)
    ensures DistinctKeys(ReadFile(dir, name))
  {
    var i :| 0 <= i < |dir| && dir[i] == (name, ReadFile(dir, name));
  }

  /** Saves the readings under the stamp's name, loads the two newest
      snapshots and, when both are non-empty, mails their increases. */
  function FinishPass(dir: Directory, stamp: string, results: Snapshot,
                      sender: string, recipients: seq<string>, product: string): (r: PassOutcome)
    requires WellFormedDirectory(dir) && DistinctKeys(results)
    ensures WellFormedDirectory(r.dir)
    ensures Lookup(r.dir, SnapshotName(stamp)) == Some(results)
    ensures forall n :: n != SnapshotName(stamp) ==> Lookup(r.dir, n) == Lookup(dir, n)
    ensures r.alert.Some? ==> |r.dir| >= 2
    ensures r.alert.Some? ==> r.alert.value.sender == sender && r.alert.value.recipients == recipients
  {
    var saved := SaveSnapshot(dir, stamp, results);
    PutKeepsDistinct(dir, SnapshotName(stamp), results);
    assert WellFormedDirectory(saved) by {
      forall i | 0 <= i < |saved| ensures DistinctKeys(saved[i].1) {
        var n := saved[i].0;
        assert Keys(saved)[i] == n;
        LookupEntry(saved, i);
        if n != SnapshotName(stamp) {
          var j :| 0 <= j < |dir| && dir[j] == (n, saved[i].1);
        }
      }
    }
    match LoadSnapshots(saved)
    case None => PassOutcome(saved, None)
    case Some((before, after)) =>
      var (previous, latest) := SelectNewestPair(Keys(saved)).value;
      LoadSnapshotsReadsNewestPair(saved, previous, latest);
      ReadFileDistinct(saved, latest);
      if |before| > 0 && |after| > 0 then
        PassOutcome(saved, ComposeAlert(sender, recipients, Diff(before, after), product))
      else
        PassOutcome(saved, None)
  }

  /** The first pass of a product, or a repeat within the same second that
      overwrites the only file, mails nothing. */
  lemma FirstPassMailsNothing(dir: Directory, stamp: string, results: Snapshot,
                              sender: string, recipients: seq<string>, product: string)
    requires WellFormedDirectory(dir) && DistinctKeys(results)
    requires Keys(dir) == [] || Keys(dir) == [SnapshotName(stamp)]
    ensures FinishPass(dir, stamp, results, sender, recipients, product).alert == None
    ensures |FinishPass(dir, stamp, results, sender, recipients, product).dir| == 1
  {
    var saved := SaveSnapshot(dir, stamp, results);
    assert |Keys(saved)| == 1;
  }

  /** A pass whose snapshot name sorts after every earlier file compares its
      readings with the newest earlier file; an empty snapshot on either side
      mails nothing. */
  lemma LaterPassComparesWithPrevious(dir: Directory, stamp: string, results: Snapshot,
                                      sender: string, recipients: seq<string>, product: string,
                                      previous: string)
    requires WellFormedDirectory(dir) && DistinctKeys(results)
    requires previous in Keys(dir)
    requires forall n :: n in Keys(dir) ==> LexLe(n, previous)
    requires LexLe(previous, SnapshotName(stamp)) && previous != SnapshotName(stamp)
    ensures var before := ReadFile(dir, previous);
            DistinctKeys(results)
            && FinishPass(dir, stamp, results, sender, recipients, product).alert ==
               if |before| > 0 && |results| > 0
               then ComposeAlert(sender, recipients, Diff(before, results), product)
               else None
  {
    var name := SnapshotName(stamp);
    var saved := SaveSnapshot(dir, stamp, results);
    assert name !in Keys(dir) by {
      if name in Keys(dir) {
        LexLeAntisymmetric(previous, name);
      }
    }
    assert Keys(saved) == Keys(dir) + [name];
    NewestAfterAppend(Keys(dir), previous, name);
    LoadSnapshotsReadsNewestPair(saved, previous, name);
  }

  /** Appending a name that sorts after the newest one makes the old newest
      the second-newest. */
  lemma NewestAfterAppend(names: seq<string>, previous: string, name: string)
    requires previous in names
    requires forall n :: n in names ==> LexLe(n, previous)
    requires LexLe(previous, name) && previous != name
    ensures IsNewestPair(names + [name], previous, name)
  {
    var all := multiset(names + [name]);
    assert all == multiset(names) + multiset{name};
    assert all - multiset{name} == multiset(names);
    forall n | n in all ensures LexLe(n, name) {
      if n == name {
        LexLeRefl(name);
      } else {
        LexLeTransitive(n, previous, name);
      }
    }
  }

  /** One product's pass: read the stores, then save, compare and alert. */
  method CheckProduct(stores: Dict<string>, visits: seq<StoreVisit>, dir: Directory, stamp: string,
                      sender: string, recipients: seq<string>, product: Product)
    returns (results: Snapshot, outcome: PassOutcome)
    requires DistinctKeys(stores)
    requires ValidVisits(stores, visits)
    requires WellFormedDirectory(dir)
    ensures Keys(results) == Keys(stores)
    ensures forall i :: 0 <= i < |results| ==>
              IsStoreReading(stores[i].0, stores[i].1, visits[i], results[i].1)
    ensures DistinctKeys(results)
    ensures outcome == FinishPass(dir, stamp, results, sender, recipients, product.name)
    ensures Lookup(outcome.dir, SnapshotName(stamp)) == Some(results)
    ensures forall n :: n != SnapshotName(stamp) ==> Lookup(outcome.dir, n) == Lookup(dir, n)
    ensures WellFormedDirectory(outcome.dir)
    ensures Keys(dir) == [] || Keys(dir) == [SnapshotName(stamp)] ==> outcome.alert == None
  {
    results := CheckStores(stores, visits);
    outcome := FinishPass(dir, stamp, results, sender, recipients, product.name);
    if Keys(dir) == [] || Keys(dir) == [SnapshotName(stamp)] {
      FirstPassMailsNothing(dir, stamp, results, sender, recipients, product.name);
    }
  }

  /** A pass of one of the configured products over the configured stores: one
      reading per store label of the table, saved in that product's history. */
  method CheckConfiguredProduct(k: nat, visits: seq<StoreVisit>, dir: Directory, stamp: string,
                                sender: string, recipients: seq<string>)
    returns (results: Snapshot, outcome: PassOutcome)
    requires k < |Products|
    requires ValidVisits(Stores, visits)
    requires WellFormedDirectory(dir)
    ensures Keys(results) == Keys(Stores) && DistinctKeys(results)
    ensures forall i :: 0 <= i < |results| ==>
              IsStoreReading(Stores[i].0, Stores[i].1, visits[i], results[i].1)
    ensures Lookup(outcome.dir, SnapshotName(stamp)) == Some(results)
    ensures outcome == FinishPass(dir, stamp, results, sender, recipients, Products[k].name)
  {
    StoresTable();
    results, outcome := CheckProduct(Stores, visits, dir, stamp, sender, recipients, Products[k]);
  }
}

=== FILE: selector.dfy ===
/** Opening the store selector with bounded retries
    (`open_retail_store_selector` in canadian-tire-check.py). The page is an
    oracle: each attempt meets one `Attempt`. */
module Selector {

  /** What one attempt meets on the page. */
  datatype Attempt =
    | Raised                        // locating the triggers failed with an exception
    | Located(triggers: seq<bool>)  // one entry per "Check other stores" trigger, in page
                                    // order: whether clicking it makes the search input
                                    // visible within the timeout

  const MaxAttempts: nat := 3

  /** Marks an attempt in which nothing was clicked. */
  const NoClick: int := -1

  /** The attempt clicks the last trigger and the search input appears. */
  predicate Opens(a: Attempt) {
    a.Located? && |a.triggers| > 0 && a.triggers[|a.triggers| - 1]
  }

  /** Some attempt within the limit opens the selector. */
  predicate SelectorOpens(attempts: seq<Attempt>)
    requires |attempts| >= MaxAttempts
  {
    exists i :: 0 <= i < MaxAttempts && Opens(attempts[i])
  }

  /** Makes attempts until one opens the selector or `MaxAttempts` are used.
      `clicks` records, per attempt made, the index of the trigger chosen, the
      last one (`NoClick` when no trigger was found or locating them raised).
      A chosen trigger whose last entry is `false` stands both for a click
      that did not open the selector and for an attempt that raised between
      choosing the trigger and clicking it. */
  method OpenStoreSelector(attempts: seq<Attempt>) returns (isOpen: bool, clicks: seq<int>)
    requires |attempts| >= MaxAttempts
    ensures isOpen <==> SelectorOpens(attempts)
    ensures 1 <= |clicks| <= MaxAttempts
    ensures isOpen ==> Opens(attempts[|clicks| - 1])
    ensures forall i :: 0 <= i < |clicks| - 1 ==> !Opens(attempts[i])
    ensures !isOpen ==> |clicks| == MaxAttempts
    ensures forall i :: 0 <= i < |clicks| ==>
              if attempts[i].Located? && |attempts[i].triggers| > 0
              then clicks[i] == |attempts[i].triggers| - 1
              else clicks[i] == NoClick
  {
    clicks := [];
    var attempt := 0;
    while attempt < MaxAttempts
      invariant 0 <= attempt <= MaxAttempts
      invariant |clicks| == attempt
      invariant forall i :: 0 <= i < attempt ==> !Opens(attempts[i])
      invariant forall i :: 0 <= i < attempt ==>
                  if attempts[i].Located? && |attempts[i].triggers| > 0
                  then clicks[i] == |attempts[i].triggers| - 1
                  else clicks[i] == NoClick
    {
      match attempts[attempt] {
        case Raised =>
          clicks := clicks + [NoClick];
        case Located(triggers) =>
          if |triggers| == 0 {
            // No trigger on the page: wait, and the attempt is used up.
            clicks := clicks + [NoClick];
          } else {
            // The page may hold stale duplicates: the last trigger is the live one.
            var last := |triggers| - 1;
            clicks := clicks + [last];
            if triggers[last] {
              return true, clicks;
            }
          }
      }
      attempt := attempt + 1;
    }
    return false, clicks;
  }
}

=== FILE: snapshots.dfy ===
/** Snapshot history and the comparison of the two newest snapshots
    (`save_snapshot`, `load_snapshots` and `diff_snapshots` in
    canadian-tire-check.py). File contents are the decoded JSON objects; the
    file system is a dict from file name to contents, in listing order. */
module Snapshots {
  import opened Wrappers
  import opened Dict

  /** Store label to reading: the contents of one snapshot file. */
  type Snapshot = Dict<int>

  /** A snapshot directory: file name to decoded contents, in the order
      `os.listdir` gives. */
  type Directory = Dict<Snapshot>

  /** Every file name once, and every file a JSON object with distinct keys. */
  predicate WellFormedDirectory(dir: Directory) {
    DistinctKeys(dir) && forall i :: 0 <= i < |dir| ==> DistinctKeys(dir[i].1)
  }

  // ---------------------------------------------------------------------------
  // Ordering file names

  /** Python's `a <= b` on strings: lexicographic by code point. */
  predicate LexLe(a: string, b: string) {
    |a| == 0 || (|b| > 0 && (a[0] < b[0] || (a[0] == b[0] && LexLe(a[1..], b[1..]))))
  }

  lemma {:induction false} LexLeAntisymmetric(a: string, b: string)
    requires LexLe(a, b) && LexLe(b, a)
    ensures a == b
  {
    if |a| > 0 && |b| > 0 {
      LexLeAntisymmetric(a[1..], b[1..]);
      assert a == [a[0]] + a[1..];
      assert b == [b[0]] + b[1..];
    }
  }

  lemma {:induction false} LexLeTransitive(a: string, b: string, c: string)
    requires LexLe(a, b) && LexLe(b, c)
    ensures LexLe(a, c)
  {
    if |a| > 0 && |b| > 0 && |c| > 0 && a[0] == b[0] == c[0] {
      LexLeTransitive(a[1..], b[1..], c[1..]);
    }
  }

  lemma {:induction false} LexLeTotal(a: string, b: string)
    ensures LexLe(a, b) || LexLe(b, a)
  {
    if |a| > 0 && |b| > 0 && a[0] == b[0] {
      LexLeTotal(a[1..], b[1..]);
    }
  }

  predicate Sorted(s: seq<string>) {
    forall i, j :: 0 <= i < j < |s| ==> LexLe(s[i], s[j])
  }

  function Insert(x: string, s: seq<string>): (r: seq<string>)
    requires Sorted(s)
    ensures Sorted(r)
    ensures multiset(r) == multiset(s) + multiset{x}
  {
    if |s| == 0 then [x]
    else if LexLe(x, s[0]) then
      assert forall j :: 0 <= j < |s| ==> LexLe(s[0], s[j]) by {
        forall j | 0 <= j < |s| ensures LexLe(s[0], s[j]) {
          if j == 0 { LexLeRefl(s[0]); }
        }
      }
      assert forall j :: 0 <= j < |s| ==> LexLe(x, s[j]) by {
        forall j | 0 <= j < |s| ensures LexLe(x, s[j]) {
          LexLeTransitive(x, s[0], s[j]);
        }
      }
      [x] + s
    else
      var rest := Insert(x, s[1..]);
      assert s == [s[0]] + s[1..];
      LexLeTotal(x, s[0]);
      assert forall j :: 0 <= j < |rest| ==> LexLe(s[0], rest[j]) by {
        forall j | 0 <= j < |rest| ensures LexLe(s[0], rest[j]) {
          assert rest[j] in multiset(rest);
          if rest[j] != x {
            assert rest[j] in multiset(s[1..]);
            var k :| 0 <= k < |s[1..]| && s[1..][k] == rest[j];
            assert s[k + 1] == rest[j];
          }
        }
      }
      [s[0]] + rest
  }

  lemma LexLeRefl(a: string)
    ensures LexLe(a, a)
  {
  }

  /** Python's `sorted` on a list of file names. */
  function Sort(s: seq<string>): (r: seq<string>)
    ensures Sorted(r)
    ensures multiset(r) == multiset(s)
  {
    if |s| == 0 then []
    else
      assert s == [s[0]] + s[1..];
      Insert(s[0], Sort(s[1..]))
  }

  // ---------------------------------------------------------------------------
  // Choosing the two newest snapshots

  /** `latest` is a greatest name of the listing and `previous` a greatest of
      the rest (a name listed twice counts twice). */
  ghost predicate IsNewestPair(names: seq<string>, previous: string, latest: string) {
    var all := multiset(names);
    var rest := all - multiset{latest};
    && latest in all
    && (forall n :: n in all ==> LexLe(n, latest))
    && previous in rest
    && (forall n :: n in rest ==> LexLe(n, previous))
  }

  /** The last two entries of the sorted listing, or none when fewer than two
      files exist. */
  function SelectNewestPair(names: seq<string>): (r: Option<(string, string)>)
    ensures r.None? <==> |names| < 2
    ensures r.Some? ==> IsNewestPair(names, r.value.0, r.value.1)
  {
    if |names| < 2 then None
    else
      var s := Sort(names);
      assert |s| == |multiset(s)| == |names|;
      SortedEndsWithNewestPair(names, s);
      Some((s[|s| - 2], s[|s| - 1]))
  }

  /** The last element of a sorted sequence is at least every element of it. */
  lemma SortedLastIsGreatest(s: seq<string>)
    requires Sorted(s) && |s| > 0
    ensures forall x :: x in multiset(s) ==> LexLe(x, s[|s| - 1])
  {
    forall x | x in multiset(s) ensures LexLe(x, s[|s| - 1]) {
      var k :| 0 <= k < |s| && s[k] == x;
      if k == |s| - 1 {
        LexLeRefl(x);
      }
    }
  }

  lemma SortedEndsWithNewestPair(names: seq<string>, s: seq<string>)
    requires Sorted(s) && multiset(s) == multiset(names) && |s| >= 2
    ensures IsNewestPair(names, s[|s| - 2], s[|s| - 1])
  {
    var n := |s|;
    var init := s[..n - 1];
    assert s == init + [s[n - 1]];
    assert multiset(names) - multiset{s[n - 1]} == multiset(init);
    SortedLastIsGreatest(s);
    assert Sorted(init);
    SortedLastIsGreatest(init);
    assert s[n - 2] == init[n - 2];
    assert s[n - 2] in multiset(init);
  }

  /** The newest pair is fixed by the names alone. */
  lemma NewestPairUnique(names: seq<string>, p: string, l: string, p': string, l': string)
    requires IsNewestPair(names, p, l) && IsNewestPair(names, p', l')
    ensures p == p' && l == l'
  {
    LexLeAntisymmetric(l, l');
    LexLeAntisymmetric(p, p');
  }

  /** Which two files are read depends on the names only, not on the order the
      directory lists them in. */
  lemma SelectionIgnoresListingOrder(a: seq<string>, b: seq<string>)
    requires multiset(a) == multiset(b)
    ensures SelectNewestPair(a) == SelectNewestPair(b)
  {
    assert |a| == |multiset(a)| == |b|;
    if |a| >= 2 {
      var (p, l) := SelectNewestPair(a).value;
      var (p', l') := SelectNewestPair(b).value;
      NewestPairUnique(a, p, l, p', l');
    }
  }

  /** The contents of a listed file. */
  function ReadFile(dir: Directory, name: string): Snapshot
    requires name in Keys(dir)
  {
    Lookup(dir, name).value
  }

  /** `load_snapshots`: the contents of the second-newest and the newest file,
      or none when fewer than two files exist. */
  function LoadSnapshots(dir: Directory): (r: Option<(Snapshot, Snapshot)>)
    ensures r.None? <==> |dir| < 2
  {
    match SelectNewestPair(Keys(dir))
    case None => None
    case Some((previous, latest)) =>
      assert forall x :: x in multiset(Keys(dir)) ==> x in Keys(dir);
      assert previous in multiset(Keys(dir));
      Some((ReadFile(dir, previous), ReadFile(dir, latest)))
  }

  /** What is loaded is the contents of the newest pair of files; no other file
      is consulted. */
  lemma LoadSnapshotsReadsNewestPair(dir: Directory, previous: string, latest: string)
    requires IsNewestPair(Keys(dir), previous, latest)
    ensures previous in Keys(dir) && latest in Keys(dir)
    ensures LoadSnapshots(dir) == Some((ReadFile(dir, previous), ReadFile(dir, latest)))
  {
    assert forall x :: x in multiset(Keys(dir)) ==> x in Keys(dir);
    assert previous in multiset(Keys(dir));
    assert |multiset(Keys(dir))| >= 2 by {
      assert multiset(Keys(dir)) == multiset(Keys(dir)) - multiset{latest} + multiset{latest};
    }
    var (p, l) := SelectNewestPair(Keys(dir)).value;
    NewestPairUnique(Keys(dir), p, l, previous, latest);
  }

  /** The name `save_snapshot` gives a snapshot taken at `stamp`. */
  function SnapshotName(stamp: string): string {
    stamp + ".json"
  }

  /** `save_snapshot`: writes `results` under the stamp's name. */
  function SaveSnapshot(dir: Directory, stamp: string, results: Snapshot): Directory {
    Put(dir, SnapshotName(stamp), results)
  }

  // ---------------------------------------------------------------------------
  // Diff

  /** Store label to (earlier reading, later reading). */
  type Increases = Dict<(int, int)>

  /** Both readings are real (not -1) and the after one is higher. */
  predicate Increased(before: Snapshot, after: Snapshot, store: string) {
    && Lookup(before, store).Some?
    && Lookup(after, store).Some?
    && 0 <= Lookup(before, store).value < Lookup(after, store).value
  }

  /** `diff_snapshots(old, new)` with `before` for `old` and `after` for `new`:
      walks `after` in order, skipping negative readings in it and stores whose
      reading in `before` is missing or negative, and keeps the strict increases. */
  function Diff(before: Snapshot, after: Snapshot): (r: Increases)
    requires DistinctKeys(after)
    ensures DistinctKeys(r)
    ensures forall s :: s in Keys(r) <==> Increased(before, after, s)
    ensures forall i :: 0 <= i < |r| ==>
              Lookup(before, r[i].0) == Some(r[i].1.0) && Lookup(after, r[i].0) == Some(r[i].1.1)
    ensures IsSubsequence(Keys(r), Keys(after))
  {
    if |after| == 0 then []
    else
      var store := after[0].0;
      var afterValue := after[0].1;
      var rest := Diff(before, after[1..]);
      KeysCons(after);
      assert store !in Keys(after[1..]);
      assert forall s :: s != store ==> Lookup(after, s) == Lookup(after[1..], s);
      if afterValue < 0 then rest
      else
        var beforeValue := Get(before, store, -1);
        if beforeValue < 0 then rest
        else if afterValue > beforeValue then
          var r := [(store, (beforeValue, afterValue))] + rest;
          KeysCons(r);
          r
        else rest
  }
}

=== FILE: stock.dfy ===
/** Turning the store cards the locator renders into one stock reading
    (`search_and_scrape_first_card` in canadian-tire-check.py). A reading is
    a count, 0 for an explicit "out of stock", or the sentinel -1 for
    "could not tell". */
module Stock {
  import opened Wrappers
  import opened Text

  /** The "could not tell" reading. */
  const Unknown: int := -1

  const OutOfStockMarker: string := "out of stock"

  /** Reads a stock tag: lower-cased and stripped, an "out of stock" anywhere
      reads 0, else the first run of digits in base 10, else -1. */
  function ParseStock(tag: string): (q: int)
    requires IsAscii(tag)
    ensures q >= Unknown
  {
    var text := Lower(Strip(tag));
    if Contains(text, OutOfStockMarker) then 0
    else
      match FirstDigitRun(text)
      case Some(digits) => DecimalValue(digits)
      case None => Unknown
  }

  /** The text the parser looks at is the lower-cased tag with its white-space
      frame cut off. */
  lemma NormalizedTag(tag: string) returns (a: nat, b: nat)
    ensures a <= b <= |tag|
    ensures Lower(Strip(tag)) == Lower(tag)[a..b]
    ensures AllSpace(Lower(tag)[..a]) && AllSpace(Lower(tag)[b..])
  {
    a, b := StripSlice(tag);
    LowerSlice(tag, a, b);
    LowerSlice(tag, 0, a);
    LowerKeepsAllSpace(tag[..a]);
    LowerSlice(tag, b, |tag|);
    LowerKeepsAllSpace(tag[b..]);
  }

  /** "out of stock" in any letter case wins, even over digits. */
  lemma ParseStockOutOfStock(tag: string)
    requires IsAscii(tag)
    requires Contains(Lower(tag), OutOfStockMarker)
    ensures ParseStock(tag) == 0
  {
    MarkerSurvivesNormalizing(tag);
  }

  /** Cutting off the white-space frame and lower-casing keep "out of stock". */
  lemma MarkerSurvivesNormalizing(tag: string)
    ensures Contains(Lower(Strip(tag)), OutOfStockMarker) <==> Contains(Lower(tag), OutOfStockMarker)
  {
    var a, b := NormalizedTag(tag);
    ContainsInFrame(Lower(tag), a, b, OutOfStockMarker);
  }

  /** A digit run of the tag, with no digit before it and none right after it,
      is also such a run of the normalized text. */
  lemma RunSurvivesNormalizing(tag: string, i: int, d: string) returns (pre: string, post: string)
    requires |d| > 0 && AllDigits(d)
    requires OccursAt(tag, d, i)
    requires NoDigits(tag[..i])
    requires i + |d| == |tag| || !IsDigit(tag[i + |d|])
    ensures Lower(Strip(tag)) == pre + d + post
    ensures NoDigits(pre) && (post == [] || !IsDigit(post[0]))
  {
    var low := Lower(tag);
    var a, b := NormalizedTag(tag);
    var j := i + |d|;
    LowerSlice(tag, i, j);
    LowerOfDigits(d);
    assert OccursAt(low, d, i);
    // The digits are not white space, so the frame lies outside them.
    assert !IsSpace(d[0]) && !IsSpace(d[|d| - 1]);
    OccursInFrame(low, a, b, d, i);
    pre := low[a..i];
    post := low[j..b];
    OccurrenceSplits(low, a, b, d, i);
    LowerPrefixNoDigits(tag, a, i);
    if post != [] {
      assert post[0] == low[j] == LowerChar(tag[j]);
      LowerCharDigit(tag[j]);
    }
    assert Lower(Strip(tag)) == pre + d + post;
  }

  /** A slice holding an occurrence is what precedes it, the key, and what
      follows it. */
  lemma OccurrenceSplits(s: string, a: int, b: int, key: string, i: int)
    requires 0 <= a <= i && i + |key| <= b <= |s|
    requires OccursAt(s, key, i)
    ensures s[a..b] == s[a..i] + key + s[i + |key|..b]
  {
    SliceSplit(s, a, i, i + |key|, b);
  }

  lemma LowerPrefixNoDigits(tag: string, a: int, i: int)
    requires 0 <= a <= i <= |tag|
    requires NoDigits(tag[..i])
    ensures NoDigits(Lower(tag)[a..i])
  {
    NoDigitsSlice(tag[..i], a, i);
    assert tag[..i][a..i] == tag[a..i];
    LowerKeepsNoDigits(tag[a..i]);
    LowerSlice(tag, a, i);
  }

  /** Without "out of stock", the reading is the first maximal digit run. */
  lemma ParseStockFirstRun(p: string, d: string, q: string)
    requires IsAscii(p + d + q)
    requires NoDigits(p)
    requires |d| > 0 && AllDigits(d)
    requires q == [] || !IsDigit(q[0])
    requires !Contains(Lower(p + d + q), OutOfStockMarker)
    ensures ParseStock(p + d + q) == DecimalValue(d)
  {
    var tag := p + d + q;
    MarkerSurvivesNormalizing(tag);
    assert tag[..|p|] == p;
    assert tag[|p|..|p| + |d|] == d;
    assert |p| + |d| < |tag| ==> tag[|p| + |d|] == q[0];
    var pre, post := RunSurvivesNormalizing(tag, |p|, d);
    FirstDigitRunOf(pre, d, post);
  }

  /** Without "out of stock" and without digits, the reading is -1. */
  lemma ParseStockNoDigits(tag: string)
    requires IsAscii(tag)
    requires NoDigits(tag)
    requires !Contains(Lower(tag), OutOfStockMarker)
    ensures ParseStock(tag) == Unknown
  {
    MarkerSurvivesNormalizing(tag);
    var a, b := NormalizedTag(tag);
    NoDigitsSlice(tag, a, b);
    LowerKeepsNoDigits(tag[a..b]);
    LowerSlice(tag, a, b);
  }

  /** A count printed in a tag reads back as that count. */
  lemma ParseStockPrintedCount(p: string, n: nat, q: string)
    requires IsAscii(p + NatToString(n) + q)
    requires NoDigits(p)
    requires q == [] || !IsDigit(q[0])
    requires !Contains(Lower(p + NatToString(n) + q), OutOfStockMarker)
    ensures ParseStock(p + NatToString(n) + q) == n
  {
    ParseStockFirstRun(p, NatToString(n), q);
    DecimalValueOfNatToString(n);
  }

  /** The store label cut to the part before its first comma, stripped and
      lower-cased: "City, Region" is matched as "city". */
  function MatchKey(store: string): (key: string)
    requires IsAscii(store)
    ensures ',' !in key
    ensures IsStripped(key)
    ensures forall i :: 0 <= i < |key| ==> !('A' <= key[i] <= 'Z')
  {
    var head := Split(store, ',')[0];
    StripKeepsAbsent(head, ',');
    LowerKeepsAbsent(Strip(head), ',');
    LowerKeepsStripped(Strip(head));
    LowerIsLowerCase(Strip(head));
    Lower(Strip(head))
  }

  lemma MatchKeyBeforeComma(p: string, rest: string)
    requires IsAscii(p + [','] + rest)
    requires ',' !in p
    ensures MatchKey(p + [','] + rest) == Lower(Strip(p))
  {
    SplitAfter(p, ',', rest);
  }

  lemma MatchKeyWithoutComma(store: string)
    requires IsAscii(store)
    requires ',' !in store
    ensures MatchKey(store) == Lower(Strip(store))
  {
    SplitWhole(store, ',');
  }

  /** One rendered result card: the name heading and the stock tag, either of
      which may be missing. */
  datatype Card = Card(name: Option<string>, tag: Option<string>)

  predicate CardAscii(c: Card) {
    (c.name.Some? ==> IsAscii(c.name.value)) && (c.tag.Some? ==> IsAscii(c.tag.value))
  }

  predicate CardsAscii(cards: seq<Card>) {
    forall i :: 0 <= i < |cards| ==> CardAscii(cards[i])
  }

  /** A card qualifies when it has a name whose stripped, lower-cased text
      contains the key. */
  predicate Qualifies(key: string, c: Card) {
    c.name.Some? && Contains(Lower(Strip(c.name.value)), key)
  }

  /** The reading of the card that decides: -1 without a tag. */
  function CardReading(c: Card): int
    requires CardAscii(c)
  {
    match c.tag
    case None => Unknown
    case Some(t) => ParseStock(t)
  }

  predicate IsFirstMatch(key: string, cards: seq<Card>, i: int) {
    0 <= i < |cards| && Qualifies(key, cards[i])
    && forall j :: 0 <= j < i ==> !Qualifies(key, cards[j])
  }

  /** Scans the cards in rendered order; the first qualifying card decides. */
  function ScanCards(key: string, cards: seq<Card>): (q: int)
    requires CardsAscii(cards)
    ensures q >= Unknown
    ensures q != Unknown ==> exists i :: IsFirstMatch(key, cards, i) && cards[i].tag.Some?
  {
    if |cards| == 0 then Unknown
    else if Qualifies(key, cards[0]) then
      assert IsFirstMatch(key, cards, 0);
      CardReading(cards[0])
    else
      var q := ScanCards(key, cards[1..]);
      FirstMatchShift(key, cards);
      q
  }

  /** Past a card that does not qualify, the first tagged match of the rest is
      the first tagged match of the whole list. */
  lemma FirstMatchShift(key: string, cards: seq<Card>)
    requires |cards| > 0 && !Qualifies(key, cards[0])
    ensures (exists i :: IsFirstMatch(key, cards[1..], i) && cards[1..][i].tag.Some?) ==>
              exists i :: IsFirstMatch(key, cards, i) && cards[i].tag.Some?
  {
    if i :| IsFirstMatch(key, cards[1..], i) && cards[1..][i].tag.Some? {
      forall j | 0 <= j < i + 1
        ensures !Qualifies(key, cards[j])
      {
        if j > 0 {
          assert cards[j] == cards[1..][j - 1];
        }
      }
      assert IsFirstMatch(key, cards, i + 1) && cards[i + 1].tag.Some?;
    }
  }

  /** The first qualifying card is authoritative: nothing after it is looked at. */
  lemma {:induction false} ScanStopsAtFirstMatch(key: string, cards: seq<Card>, i: int)
    requires CardsAscii(cards)
    requires IsFirstMatch(key, cards, i)
    ensures ScanCards(key, cards) == CardReading(cards[i])
  {
    if i > 0 {
      assert IsFirstMatch(key, cards[1..], i - 1);
      ScanStopsAtFirstMatch(key, cards[1..], i - 1);
    }
  }

  /** No qualifying card reads -1. */
  lemma {:induction false} ScanWithoutMatch(key: string, cards: seq<Card>)
    requires CardsAscii(cards)
    requires forall i :: 0 <= i < |cards| ==> !Qualifies(key, cards[i])
    ensures ScanCards(key, cards) == Unknown
  {
    if |cards| > 0 {
      ScanWithoutMatch(key, cards[1..]);
    }
  }

  /** The scan reads the first qualifying card, and -1 when none qualifies. */
  lemma ScanDecides(key: string, cards: seq<Card>)
    requires CardsAscii(cards)
    ensures forall i :: IsFirstMatch(key, cards, i) ==> ScanCards(key, cards) == CardReading(cards[i])
    ensures (forall i :: 0 <= i < |cards| ==> !Qualifies(key, cards[i])) ==> ScanCards(key, cards) == Unknown
  {
    forall i | IsFirstMatch(key, cards, i)
      ensures ScanCards(key, cards) == CardReading(cards[i])
    {
      ScanStopsAtFirstMatch(key, cards, i);
    }
    if forall i :: 0 <= i < |cards| ==> !Qualifies(key, cards[i]) {
      ScanWithoutMatch(key, cards);
    }
  }

  /** What the overlay shows after the search text is typed: whether the
      suggestion list, the filtered result list and the real store cards each
      appear in time, and the cards in rendered order. */
  datatype Overlay = Overlay(suggestionsShown: bool, filteredShown: bool, cardsShown: bool, cards: seq<Card>)

  /** The overlay waits all succeed. */
  predicate Loaded(o: Overlay) {
    o.suggestionsShown && o.filteredShown && o.cardsShown
  }

  /** The reading for `store` from an opened store selector. */
  function Resolve(store: string, overlay: Overlay): (q: int)
    requires IsAscii(store) && CardsAscii(overlay.cards)
    ensures q >= Unknown
    ensures !Loaded(overlay) ==> q == Unknown
    ensures q != Unknown ==>
              exists i :: IsFirstMatch(MatchKey(store), overlay.cards, i) && overlay.cards[i].tag.Some?
    ensures forall i {:trigger IsFirstMatch(MatchKey(store), overlay.cards, i)} ::
              Loaded(overlay) && IsFirstMatch(MatchKey(store), overlay.cards, i) ==>
                q == CardReading(overlay.cards[i])
    ensures Loaded(overlay) && (forall i :: 0 <= i < |overlay.cards| ==> !Qualifies(MatchKey(store), overlay.cards[i])) ==>
              q == Unknown
  {
    if !overlay.suggestionsShown then Unknown
    else if !overlay.filteredShown then Unknown
    else if !overlay.cardsShown then Unknown
    else
      ScanDecides(MatchKey(store), overlay.cards);
      ScanCards(MatchKey(store), overlay.cards)
  }
}

=== FILE: text.dfy ===
/** Characters and strings with the meaning Python's `str` methods and the
    `re` character classes `\s` and `\d` give them on 7-bit ASCII text. */
module Text {
  import opened Wrappers

  predicate IsAscii(s: string) {
    forall i :: 0 <= i < |s| ==> s[i] as int < 128
  }

  predicate NoNewline(s: string) {
    '\n' !in s
  }

  /** `str.isspace()` and regex `\s` on ASCII: tab, line feed, vertical tab,
      form feed, carriage return, the separators 0x1C-0x1F, and space. */
  predicate IsSpace(c: char) {
    c == ' ' || 9 <= c as int <= 13 || 28 <= c as int <= 31
  }

  /** Regex `\d` on ASCII. */
  predicate IsDigit(c: char) {
    '0' <= c <= '9'
  }

  predicate AllSpace(s: string) {
    forall i :: 0 <= i < |s| ==> IsSpace(s[i])
  }

  predicate AllDigits(s: string) {
    forall i :: 0 <= i < |s| ==> IsDigit(s[i])
  }

  predicate NoDigits(s: string) {
    forall i :: 0 <= i < |s| ==> !IsDigit(s[i])
  }

  /** Neither starts nor ends with white space: what `str.strip()` leaves. */
  predicate IsStripped(s: string) {
    s == [] || (!IsSpace(s[0]) && !IsSpace(s[|s| - 1]))
  }

  function LowerChar(c: char): char {
    if 'A' <= c <= 'Z' then (c as int + 32) as char else c
  }

  /** `str.lower()` on ASCII text. */
  function Lower(s: string): string {
    seq(|s|, i requires 0 <= i < |s| => LowerChar(s[i]))
  }

  lemma LowerSlice(s: string, a: int, b: int)
    requires 0 <= a <= b <= |s|
    ensures Lower(s[a..b]) == Lower(s)[a..b]
  {
  }

  lemma LowerConcat(s: string, t: string)
    ensures Lower(s + t) == Lower(s) + Lower(t)
  {
  }

  lemma LowerIsLowerCase(s: string)
    ensures forall i :: 0 <= i < |s| ==> !('A' <= Lower(s)[i] <= 'Z')
  {
  }

  lemma LowerKeepsStripped(s: string)
    requires IsStripped(s)
    ensures IsStripped(Lower(s))
  {
  }

  /** Lower-casing neither creates nor removes a character that has no case. */
  lemma LowerKeepsAbsent(s: string, c: char)
    requires !('A' <= c <= 'Z') && !('a' <= c <= 'z')
    requires c !in s
    ensures c !in Lower(s)
  {
    assert forall i :: 0 <= i < |s| ==> Lower(s)[i] != c;
  }

  lemma LowerCharDigit(c: char)
    ensures IsDigit(LowerChar(c)) <==> IsDigit(c)
  {
  }

  lemma LowerKeepsNoDigits(s: string)
    requires NoDigits(s)
    ensures NoDigits(Lower(s))
  {
  }

  lemma LowerKeepsAllSpace(s: string)
    requires AllSpace(s)
    ensures AllSpace(Lower(s))
  {
  }

  lemma NoDigitsSlice(s: string, a: int, b: int)
    requires NoDigits(s) && 0 <= a <= b <= |s|
    ensures NoDigits(s[a..b])
  {
    forall k | 0 <= k < b - a ensures !IsDigit(s[a..b][k]) {
      assert s[a..b][k] == s[a + k];
    }
  }

  /** A slice is the concatenation of its three consecutive sub-slices. */
  lemma SliceSplit(s: string, a: int, i: int, j: int, b: int)
    requires 0 <= a <= i <= j <= b <= |s|
    ensures s[a..b] == s[a..i] + s[i..j] + s[j..b]
  {
  }

  lemma LowerOfDigits(d: string)
    requires AllDigits(d)
    ensures Lower(d) == d
  {
  }

  /** Length of the longest prefix of `s` all of whose characters satisfy `p`. */
  function Span(s: string, p: char -> bool): (n: nat)
    ensures n <= |s|
    ensures forall i :: 0 <= i < n ==> p(s[i])
    ensures n == |s| || !p(s[n])
  {
    if |s| > 0 && p(s[0]) then 1 + Span(s[1..], p) else 0
  }

  /** Where the longest suffix of `s` all of whose characters satisfy `p` begins. */
  function SpanBack(s: string, p: char -> bool): (n: nat)
    ensures n <= |s|
    ensures forall i :: n <= i < |s| ==> p(s[i])
    ensures n == 0 || !p(s[n - 1])
  {
    if |s| > 0 && p(s[|s| - 1]) then SpanBack(s[..|s| - 1], p) else |s|
  }

  /** The prefix `Span` measures, as a sequence of its own. */
  lemma SpanPrefix(s: string, p: char -> bool)
    ensures forall i :: 0 <= i < Span(s, p) ==> p(s[..Span(s, p)][i])
  {
  }

  lemma SpanUnique(s: string, p: char -> bool, n: nat)
    requires n <= |s|
    requires forall i :: 0 <= i < n ==> p(s[i])
    requires n == |s| || !p(s[n])
    ensures Span(s, p) == n
  {
  }

  lemma SpanBackUnique(s: string, p: char -> bool, n: nat)
    requires n <= |s|
    requires forall i :: n <= i < |s| ==> p(s[i])
    requires n == 0 || !p(s[n - 1])
    ensures SpanBack(s, p) == n
  {
  }

  /** `str.lstrip()`. */
  function TrimStart(s: string): string {
    s[Span(s, IsSpace)..]
  }

  /** Leading white space in front of a text that does not start with white
      space is all `TrimStart` removes. */
  lemma TrimStartFrame(w: string, t: string)
    requires AllSpace(w) && (t == [] || !IsSpace(t[0]))
    ensures TrimStart(w + t) == t
  {
    SpanUnique(w + t, IsSpace, |w|);
    assert (w + t)[|w|..] == t;
  }

  /** `str.strip()`. */
  function Strip(s: string): (r: string)
    ensures IsStripped(r)
    ensures |r| <= |s|
  {
    var t := TrimStart(s);
    t[..SpanBack(t, IsSpace)]
  }

  /** What `Strip` keeps is a slice with white space on either side of it. */
  lemma StripSlice(s: string) returns (a: nat, b: nat)
    ensures a <= b <= |s|
    ensures Strip(s) == s[a..b]
    ensures AllSpace(s[..a]) && AllSpace(s[b..])
  {
    a := Span(s, IsSpace);
    var t := s[a..];
    var n := SpanBack(t, IsSpace);
    b := a + n;
    assert Strip(s) == t[..n];
    assert s[b..] == t[n..];
  }

  lemma StripKeepsAbsent(s: string, c: char)
    requires c !in s
    ensures c !in Strip(s)
  {
    var a, b := StripSlice(s);
    assert forall i :: 0 <= i < b - a ==> s[a..b][i] == s[a + i];
  }

  lemma StripFrame(w1: string, t: string, w2: string)
    requires AllSpace(w1) && AllSpace(w2) && IsStripped(t)
    ensures Strip(w1 + t + w2) == t
  {
    var s := w1 + t + w2;
    if t == [] {
      assert AllSpace(s);
      SpanUnique(s, IsSpace, |s|);
    } else {
      assert s[|w1|] == t[0];
      SpanUnique(s, IsSpace, |w1|);
      assert TrimStart(s) == t + w2;
      assert (t + w2)[|t| - 1] == t[|t| - 1];
      SpanBackUnique(t + w2, IsSpace, |t|);
      assert (t + w2)[..|t|] == t;
    }
  }

  /** `Strip` of a text that starts and ends with white space. */
  lemma StripAll(w: string)
    requires AllSpace(w)
    ensures Strip(w) == []
  {
    StripFrame(w, [], []);
    assert w + [] + [] == w;
  }

  predicate OccursAt(s: string, sub: string, i: int) {
    0 <= i && i + |sub| <= |s| && s[i..i + |sub|] == sub
  }

  /** Python's `sub in s`. */
  predicate Contains(s: string, sub: string) {
    exists i :: 0 <= i <= |s| - |sub| && OccursAt(s, sub, i)
  }

  lemma SliceOfSlice(s: string, a: int, b: int, i: int, j: int)
    requires 0 <= a <= b <= |s|
    requires 0 <= i <= j <= b - a
    ensures s[a..b][i..j] == s[a + i..a + j]
  {
    assert forall k :: 0 <= k < j - i ==> s[a..b][i..j][k] == s[a + i + k];
  }

  lemma OccursInSlice(s: string, a: int, b: int, key: string, i: int)
    requires 0 <= a <= b <= |s|
    requires OccursAt(s[a..b], key, i)
    ensures OccursAt(s, key, a + i)
  {
    SliceOfSlice(s, a, b, i, i + |key|);
  }

  /** An occurrence of a key with non-space ends lies inside the white-space frame. */
  lemma OccursInFrame(s: string, a: int, b: int, key: string, i: int)
    requires 0 <= a <= b <= |s|
    requires AllSpace(s[..a]) && AllSpace(s[b..])
    requires |key| > 0 && !IsSpace(key[0]) && !IsSpace(key[|key| - 1])
    requires OccursAt(s, key, i)
    ensures OccursAt(s[a..b], key, i - a)
  {
    assert s[i] == s[i..i + |key|][0] == key[0];
    var j := i + |key| - 1;
    assert s[j] == s[i..i + |key|][|key| - 1] == key[|key| - 1];
    SliceOfSlice(s, a, b, i - a, i - a + |key|);
  }

  /** A key that starts and ends with a non-space character occurs in a text
      exactly when it occurs inside the text's white-space frame. */
  lemma ContainsInFrame(s: string, a: int, b: int, key: string)
    requires 0 <= a <= b <= |s|
    requires AllSpace(s[..a]) && AllSpace(s[b..])
    requires |key| > 0 && !IsSpace(key[0]) && !IsSpace(key[|key| - 1])
    ensures Contains(s[a..b], key) <==> Contains(s, key)
  {
    if Contains(s[a..b], key) {
      var i :| 0 <= i <= b - a - |key| && OccursAt(s[a..b], key, i);
      OccursInSlice(s, a, b, key, i);
    }
    if Contains(s, key) {
      var i :| 0 <= i <= |s| - |key| && OccursAt(s, key, i);
      OccursInFrame(s, a, b, key, i);
    }
  }

  /** Python's `str.endswith`. */
  predicate EndsWith(s: string, suffix: string) {
    |suffix| <= |s| && s[|s| - |suffix|..] == suffix
  }

  /** Python's `re.search(r"(\d+)", s)`: the leftmost maximal run of digits. */
  function FirstDigitRun(s: string): (r: Option<string>)
    ensures r.Some? ==> |r.value| > 0 && AllDigits(r.value)
    ensures r.None? <==> NoDigits(s)
  {
    if |s| == 0 then None
    else if IsDigit(s[0]) then Some(s[..Span(s, IsDigit)])
    else
      var r := FirstDigitRun(s[1..]);
      assert NoDigits(s[1..]) ==> NoDigits(s);
      assert NoDigits(s) ==> NoDigits(s[1..]) by {
        if NoDigits(s) {
          forall i | 0 <= i < |s| - 1 ensures !IsDigit(s[1..][i]) {
            assert s[1..][i] == s[i + 1];
          }
        }
      }
      r
  }

  /** The run found is the first one: whatever precedes it has no digit and
      whatever follows it does not continue it. */
  lemma {:induction false} FirstDigitRunOf(p: string, d: string, q: string)
    requires NoDigits(p)
    requires |d| > 0 && AllDigits(d)
    requires q == [] || !IsDigit(q[0])
    ensures FirstDigitRun(p + d + q) == Some(d)
  {
    var s := p + d + q;
    if |p| == 0 {
      assert s == d + q;
      assert s[0] == d[0];
      if q != [] {
        assert s[|d|] == q[0];
      }
      SpanUnique(s, IsDigit, |d|);
      assert s[..|d|] == d;
    } else {
      assert s[0] == p[0];
      assert s[1..] == p[1..] + d + q;
      FirstDigitRunOf(p[1..], d, q);
    }
  }

  function DigitValue(c: char): nat
    requires IsDigit(c)
  {
    c as int - '0' as int
  }

  function DigitChar(n: nat): char
    requires n < 10
  {
    ('0' as int + n) as char
  }

  /** Python's `int(d)` for a string of ASCII digits. */
  function DecimalValue(d: string): nat
    requires AllDigits(d)
  {
    if |d| == 0 then 0 else 10 * DecimalValue(d[..|d| - 1]) + DigitValue(d[|d| - 1])
  }

  /** Python's `str(n)` for a non-negative integer. */
  function NatToString(n: nat): (r: string)
    ensures |r| > 0 && AllDigits(r)
  {
    if n < 10 then [DigitChar(n)] else NatToString(n / 10) + [DigitChar(n % 10)]
  }

  lemma {:induction false} DecimalValueOfNatToString(n: nat)
    ensures DecimalValue(NatToString(n)) == n
  {
    if n >= 10 {
      var s := NatToString(n);
      assert s[..|s| - 1] == NatToString(n / 10);
      DecimalValueOfNatToString(n / 10);
    }
  }

  /** Python's `str(i)` for any integer. */
  function IntToString(i: int): (r: string)
    ensures NoNewline(r)
  {
    var digits := NatToString(if i < 0 then -i else i);
    assert !IsDigit('\n');
    if i < 0 then "-" + digits else digits
  }

  /** Python's `s.split(c)` for a one-character separator. */
  function Split(s: string, c: char): (parts: seq<string>)
    ensures |parts| > 0
    ensures forall i :: 0 <= i < |parts| ==> c !in parts[i]
    decreases |s|
  {
    var k := Span(s, x => x != c);
    assert forall j :: 0 <= j < k ==> s[..k][j] != c;
    if k == |s| then [s] else [s[..k]] + Split(s[k + 1..], c)
  }

  /** Python's `sep.join(parts)`. */
  function Join(sep: string, parts: seq<string>): string {
    if |parts| == 0 then ""
    else if |parts| == 1 then parts[0]
    else parts[0] + sep + Join(sep, parts[1..])
  }

  lemma SplitWhole(x: string, c: char)
    requires c !in x
    ensures Split(x, c) == [x]
  {
    SpanUnique(x, y => y != c, |x|);
  }

  lemma SplitAfter(x: string, c: char, y: string)
    requires c !in x
    ensures Split(x + [c] + y, c) == [x] + Split(y, c)
  {
    var s := x + [c] + y;
    assert s[|x|] == c;
    SpanUnique(s, z => z != c, |x|);
    assert s[..|x|] == x;
    assert s[|x| + 1..] == y;
  }

  /** Splitting a join on the separator gives back the parts. */
  lemma {:induction false} SplitJoin(parts: seq<string>, c: char)
    requires |parts| > 0
    requires forall i :: 0 <= i < |parts| ==> c !in parts[i]
    ensures Split(Join([c], parts), c) == parts
  {
    if |parts| == 1 {
      SplitWhole(parts[0], c);
    } else {
      SplitAfter(parts[0], c, Join([c], parts[1..]));
      SplitJoin(parts[1..], c);
    }
  }

  /** Joining the pieces of a split with the separator gives back the text. */
  lemma {:induction false} JoinSplit(s: string, c: char)
    ensures Join([c], Split(s, c)) == s
    decreases |s|
  {
    var k := Span(s, x => x != c);
    if k < |s| {
      var rest := s[k + 1..];
      JoinSplit(rest, c);
      assert s == s[..k] + [c] + rest;
      var tail := Split(rest, c);
      assert Split(s, c) == [s[..k]] + tail;
      assert ([s[..k]] + tail)[1..] == tail;
    }
  }
}

=== FILE: tracks.dfy ===
/** Title and track number from an audio file's name (set_title_from_filename.py):
    the extension is cut off, a leading "NN." prefix becomes the track number
    and the rest the title. Names are ASCII, hold no newline and no path
    separator (they come from a directory listing). */
module Tracks {
  import opened Wrappers
  import opened Text
  import opened Dict

  /** A directory entry's name: no path separator of either convention. */
  predicate IsBareName(name: string) {
    '/' !in name && '\\' !in name
  }

  predicate IsDot(c: char) {
    c == '.'
  }

  predicate AllDots(s: string) {
    forall i :: 0 <= i < |s| ==> IsDot(s[i])
  }

  /** An extension as `os.path.splitext` cuts it: a dot and no further dot. */
  predicate IsExtension(ext: string) {
    |ext| > 0 && IsDot(ext[0]) && forall i :: 1 <= i < |ext| ==> !IsDot(ext[i])
  }

  // ---------------------------------------------------------------------------
  // os.path.splitext

  /** `os.path.splitext` on a bare name: the extension runs from the last dot,
      unless only dots precede that dot (".bashrc", "..x" have none). */
  function SplitExt(name: string): (r: (string, string))
    ensures r.0 + r.1 == name
    ensures r.1 == [] || (IsExtension(r.1) && !AllDots(r.0))
  {
    var k := SpanBack(name, c => !IsDot(c));
    if k == 0 then (name, [])
    else if AllDots(name[..k - 1]) then (name, [])
    else
      assert name[..k - 1] + name[k - 1..] == name;
      (name[..k - 1], name[k - 1..])
  }

  /** A stem holding something other than dots, followed by an extension,
      splits back into the two. */
  lemma SplitExtOf(stem: string, ext: string)
    requires !AllDots(stem) && IsExtension(ext)
    ensures SplitExt(stem + ext) == (stem, ext)
  {
    var name := stem + ext;
    var k := |stem| + 1;
    assert name[k - 1] == ext[0];
    assert forall i :: k <= i < |name| ==> name[i] == ext[i - |stem|];
    SpanBackUnique(name, c => !IsDot(c), k);
    assert name[..k - 1] == stem;
    assert name[k - 1..] == ext;
  }

  /** A name without a dot has no extension. */
  lemma SplitExtWithoutDot(name: string)
    requires forall i :: 0 <= i < |name| ==> !IsDot(name[i])
    ensures SplitExt(name) == (name, [])
  {
    SpanBackUnique(name, c => !IsDot(c), 0);
  }

  // ---------------------------------------------------------------------------
  // The track prefix ^\s*(\d+)\.\s*(.*)$

  /** The match of `^\s*(\d+)\.\s*(.*)$` on a stem without newline: the
      digits and the rest after the dot with its leading white space cut. The
      two greedy runs never give anything back, since white space, digits and
      the dot are disjoint and `(.*)$` takes any newline-free rest. */
  function MatchTrackPrefix(stem: string): (r: Option<(string, string)>)
    requires NoNewline(stem)
    ensures r.Some? ==> |r.value.0| > 0 && AllDigits(r.value.0)
    ensures r.Some? ==> r.value.1 == [] || !IsSpace(r.value.1[0])
  {
    var rest := TrimStart(stem);
    var n := Span(rest, IsDigit);
    if n == 0 || n == |rest| || rest[n] != '.' then None
    else
      var title := TrimStart(rest[n + 1..]);
      assert |title| > 0 ==> title[0] == rest[n + 1..][Span(rest[n + 1..], IsSpace)];
      Some((rest[..n], title))
  }

  /** Every stem of the form white space, digits, dot, rest matches, with the
      digits as track and the rest less its leading white space as title. */
  lemma MatchTrackPrefixOf(w: string, d: string, rest: string)
    requires AllSpace(w) && |d| > 0 && AllDigits(d)
    requires NoNewline(w + d + "." + rest)
    ensures MatchTrackPrefix(w + d + "." + rest) == Some((d, TrimStart(rest)))
  {
    var stem := w + d + "." + rest;
    assert stem[|w|] == d[0];
    SpanUnique(stem, IsSpace, |w|);
    var after := d + "." + rest;
    assert stem[|w|..] == after;
    assert after[|d|] == '.';
    SpanUnique(after, IsDigit, |d|);
    assert after[..|d|] == d;
    assert after[|d| + 1..] == rest;
  }

  /** Conversely, a match comes from such a stem. */
  lemma MatchTrackPrefixFrom(stem: string, d: string, t: string) returns (w: string, rest: string)
    requires NoNewline(stem)
    requires MatchTrackPrefix(stem) == Some((d, t))
    ensures AllSpace(w) && stem == w + d + "." + rest && t == TrimStart(rest)
  {
    var a := Span(stem, IsSpace);
    var trimmed := stem[a..];
    var n := Span(trimmed, IsDigit);
    w := stem[..a];
    rest := trimmed[n + 1..];
    assert d == trimmed[..n] && trimmed[n] == '.';
    Reassemble(stem, a, a + n, w, d, rest);
    SpanPrefix(stem, IsSpace);
    assert AllSpace(w);
    assert t == TrimStart(rest);
  }

  /** A sequence cut around a dot at `b` and at `a` before it. */
  lemma Reassemble(s: string, a: nat, b: nat, w: string, d: string, rest: string)
    requires a <= b < |s| && s[b] == '.'
    requires w == s[..a] && d == s[a..b] && rest == s[b + 1..]
    ensures s == w + d + "." + rest
  {
    assert s == s[..a] + s[a..b] + [s[b]] + s[b + 1..];
  }

  lemma SeqAssoc(a: string, b: string, c: string)
    ensures a + (b + c) == a + b + c
  {
  }

  /** The digits must be followed by the dot at once. */
  lemma NoMatchWithoutDot(w: string, d: string, c: char, rest: string)
    requires AllSpace(w) && |d| > 0 && AllDigits(d)
    requires !IsDigit(c) && c != '.'
    requires NoNewline(w + d + [c] + rest)
    ensures MatchTrackPrefix(w + d + [c] + rest) == None
  {
    var stem := w + d + [c] + rest;
    assert stem[|w|] == d[0];
    SpanUnique(stem, IsSpace, |w|);
    var after := d + [c] + rest;
    assert stem[|w|..] == after;
    assert after[|d|] == c;
    SpanUnique(after, IsDigit, |d|);
  }

  /** A stem that, past its leading white space, does not begin with a digit
      does not match. */
  lemma NoMatchWithoutDigits(stem: string)
    requires NoNewline(stem)
    requires var rest := TrimStart(stem); rest == [] || !IsDigit(rest[0])
    ensures MatchTrackPrefix(stem) == None
  {
    SpanUnique(TrimStart(stem), IsDigit, 0);
  }

  // ---------------------------------------------------------------------------
  // parse_filename

  /** The track number, if the stem carries one, and the title. */
  function ParseFilename(file: string): (r: (Option<string>, string))
    requires IsAscii(file) && NoNewline(file) && IsBareName(file)
    ensures r.0.Some? ==> |r.0.value| > 0 && AllDigits(r.0.value)
    ensures r.0.None? ==> r.1 == SplitExt(file).0
    ensures r.0.Some? ==> r.1 == [] || !IsSpace(r.1[0])
  {
    var stem := SplitExt(file).0;
    assert NoNewline(stem) by {
      assert forall i :: 0 <= i < |stem| ==> stem[i] == file[i];
    }
    match MatchTrackPrefix(stem)
    case Some((track, title)) => (Some(track), title)
    case None => (None, stem)
  }

  /** The audio extensions the folder walk handles. */
  const AudioExtensions: seq<string> := [".mp3", ".wav", ".flac"]

  /** With an extension present, the parse is the prefix match of the stem
      before it. */
  lemma ParseFilenameOfStem(stem: string, ext: string)
    requires !AllDots(stem) && IsExtension(ext)
    requires IsAscii(stem + ext) && NoNewline(stem + ext) && IsBareName(stem + ext)
    ensures NoNewline(stem)
    ensures ParseFilename(stem + ext) ==
              match MatchTrackPrefix(stem)
              case Some((track, title)) => (Some(track), title)
              case None => (None, stem)
  {
    SplitExtOf(stem, ext);
    assert forall i :: 0 <= i < |stem| ==> stem[i] == (stem + ext)[i];
  }

  /** A name written as track number, a dot, white space, title and an audio
      extension parses back into that number and title; dots inside the title
      stay in the title. */
  lemma ParseFilenameRoundTrip(d: string, w: string, title: string, ext: string)
    requires |d| > 0 && AllDigits(d) && AllSpace(w)
    requires title == [] || !IsSpace(title[0])
    requires ext in AudioExtensions
    requires IsAscii(d + "." + w + title + ext) && NoNewline(d + "." + w + title + ext)
    requires IsBareName(d + "." + w + title + ext)
    ensures ParseFilename(d + "." + w + title + ext) == (Some(d), title)
  {
    var stem := d + "." + w + title;
    assert stem[0] == d[0];
    AudioExtensionIsExtension(ext);
    ParseFilenameOfStem(stem, ext);
    SeqAssoc(d + ".", w, title);
    assert [] + d == d;
    MatchTrackPrefixOf([], d, w + title);
    TrimStartFrame(w, title);
  }

  lemma AudioExtensionIsExtension(ext: string)
    requires ext in AudioExtensions
    ensures IsExtension(ext)
  {
  }

  /** Digits followed by anything other than a dot or a further digit give no
      track number, and the title is the whole stem. */
  lemma ParseFilenameDigitsWithoutDot(d: string, c: char, rest: string, ext: string)
    requires |d| > 0 && AllDigits(d) && !IsDigit(c) && c != '.'
    requires IsExtension(ext)
    requires IsAscii(d + [c] + rest + ext) && NoNewline(d + [c] + rest + ext)
    requires IsBareName(d + [c] + rest + ext)
    ensures ParseFilename(d + [c] + rest + ext) == (None, d + [c] + rest)
  {
    var stem := d + [c] + rest;
    assert !IsDot(stem[0]);
    ParseFilenameOfStem(stem, ext);
    assert stem == [] + d + [c] + rest;
    NoMatchWithoutDot([], d, c, rest);
  }

  // ---------------------------------------------------------------------------
  // Which files are handled and which tags they get

  /** The lower-cased name ends in one of the audio extensions. */
  predicate IsAudioFile(file: string) {
    var lower := Lower(file);
    EndsWith(lower, ".mp3") || EndsWith(lower, ".wav") || EndsWith(lower, ".flac")
  }

  /** A stem with something other than dots, followed by an audio extension in
      any letter case, passes the filter and loses exactly that extension. */
  lemma AudioSuffixCut(stem: string, ext: string)
    requires IsAscii(stem + ext)
    requires !AllDots(stem) && Lower(ext) in AudioExtensions
    ensures IsAudioFile(stem + ext)
    ensures SplitExt(stem + ext) == (stem, ext)
  {
    var file := stem + ext;
    LowerConcat(stem, ext);
    assert Lower(file)[|file| - |ext|..] == Lower(ext);
    forall i | 0 <= i < |ext| ensures IsDot(ext[i]) <==> i == 0 {
      assert Lower(ext)[i] == LowerChar(ext[i]);
    }
    SplitExtOf(stem, ext);
  }

  /** Conversely, a file that passes the filter is a stem and an audio
      extension, and `splitext` cuts that extension off unless the stem is
      only dots. */
  lemma AudioFileSuffix(file: string) returns (stem: string, ext: string)
    requires IsAscii(file) && IsAudioFile(file)
    ensures file == stem + ext && Lower(ext) in AudioExtensions
    ensures AllDots(stem) || SplitExt(file) == (stem, ext)
  {
    var lower := Lower(file);
    var n := if EndsWith(lower, ".mp3") then 4 else if EndsWith(lower, ".wav") then 4 else 5;
    stem := file[..|file| - n];
    ext := file[|file| - n..];
    assert file == stem + ext;
    LowerSlice(file, |file| - n, |file|);
    assert Lower(ext) == lower[|lower| - n..];
    assert Lower(ext) == AudioExtensions[0] || Lower(ext) == AudioExtensions[1] || Lower(ext) == AudioExtensions[2];
    if !AllDots(stem) {
      AudioSuffixCut(stem, ext);
    }
  }

  /** The container of an audio file, by its lower-cased ending. */
  datatype Kind = Mp3 | Wav | Flac

  /** The kind goes by the lower-cased ending: .mp3, .wav or .flac. */
  function KindOf(file: string): (k: Option<Kind>)
    ensures k.Some? <==> IsAudioFile(file)
    ensures k == Some(Mp3) <==> EndsWith(Lower(file), ".mp3")
    ensures k == Some(Wav) <==> EndsWith(Lower(file), ".wav")
    ensures k == Some(Flac) <==> EndsWith(Lower(file), ".flac")
  {
    var lower := Lower(file);
    EndingsExclusive(lower);
    if EndsWith(lower, ".mp3") then Some(Mp3)
    else if EndsWith(lower, ".wav") then Some(Wav)
    else if EndsWith(lower, ".flac") then Some(Flac)
    else None
  }

  /** No name has two of the audio endings: their last characters differ. */
  lemma EndingsExclusive(s: string)
    ensures !(EndsWith(s, ".mp3") && EndsWith(s, ".wav"))
    ensures !(EndsWith(s, ".mp3") && EndsWith(s, ".flac"))
    ensures !(EndsWith(s, ".wav") && EndsWith(s, ".flac"))
  {
    if |s| > 0 {
      var last := s[|s| - 1];
      assert EndsWith(s, ".mp3") ==> last == s[|s| - 4..][3] == '3';
      assert EndsWith(s, ".wav") ==> last == s[|s| - 4..][3] == 'v';
      assert EndsWith(s, ".flac") ==> last == s[|s| - 5..][4] == 'c';
    }
  }

  /** The tag frames written to a file, in order: ID3 `TIT2`/`TRCK` for MP3
      and WAV, Vorbis `title`/`tracknumber` for FLAC. */
  type Frames = seq<(string, string)>

  function TitleKey(k: Kind): string {
    if k.Flac? then "title" else "TIT2"
  }

  function TrackKey(k: Kind): string {
    if k.Flac? then "tracknumber" else "TRCK"
  }

  /** The frames for an audio file: the title always, the track number only
      when one was parsed (`if track_num:`, an empty or missing number being
      false). */
  function FramesFor(file: string): (r: Frames)
    requires NameOk(file) && IsAudioFile(file)
    ensures |r| == 1 || |r| == 2
    ensures r[0].0 == TitleKey(KindOf(file).value)
    ensures |r| == 2 ==> r[1].0 == TrackKey(KindOf(file).value)
    ensures r[0].1 == ParseFilename(file).1
    ensures |r| == 2 <==> ParseFilename(file).0.Some?
    ensures |r| == 2 ==> r[1].1 == ParseFilename(file).0.value
  {
    var kind := KindOf(file).value;
    var (track, title) := ParseFilename(file);
    [(TitleKey(kind), title)]
      + if track.Some? && |track.value| > 0 then [(TrackKey(kind), track.value)] else []
  }

  /** A name as a directory listing gives it, within the modelled alphabet. */
  predicate NameOk(file: string) {
    IsAscii(file) && NoNewline(file) && IsBareName(file)
  }

  /** The names the walk tags are within the modelled alphabet; the names it
      skips may be anything. */
  predicate ListingOk(files: seq<string>) {
    forall i :: 0 <= i < |files| && IsAudioFile(files[i]) ==> NameOk(files[i])
  }

  /** The audio files of a listing, in listing order. */
  function AudioFiles(files: seq<string>): seq<string>
    decreases |files|
  {
    if |files| == 0 then []
    else
      var file := files[|files| - 1];
      AudioFiles(files[..|files| - 1]) + if IsAudioFile(file) then [file] else []
  }

  /** The audio files are picked out of the listing in order. */
  lemma {:induction false} AudioFilesInListingOrder(files: seq<string>)
    ensures IsSubsequence(AudioFiles(files), files)
    decreases |files|
  {
    if |files| > 0 {
      var n := |files| - 1;
      AudioFilesInListingOrder(files[..n]);
      assert files == files[..n] + [files[n]];
      if IsAudioFile(files[n]) {
        SubsequenceAppendBoth(AudioFiles(files[..n]), files[..n], files[n]);
      } else {
        assert AudioFiles(files) == AudioFiles(files[..n]) + [];
        assert AudioFiles(files[..n]) + [] == AudioFiles(files[..n]);
        SubsequenceAppendRight(AudioFiles(files[..n]), files[..n], files[n]);
      }
    }
  }

  /** A name is among the audio files exactly when it is a listed audio file. */
  lemma {:induction false} AudioFilesExactly(files: seq<string>, x: string)
    ensures x in AudioFiles(files) <==> x in files && IsAudioFile(x)
    decreases |files|
  {
    if |files| > 0 {
      var n := |files| - 1;
      AudioFilesExactly(files[..n], x);
      assert files == files[..n] + [files[n]];
    }
  }

  /** Taking one more file of the listing adds it to the audio files exactly
      when it is one. */
  lemma AudioFilesStep(files: seq<string>, i: nat)
    requires i < |files|
    ensures AudioFiles(files[..i + 1]) ==
              AudioFiles(files[..i]) + if IsAudioFile(files[i]) then [files[i]] else []
  {
    assert files[..i + 1][..i] == files[..i];
  }

  /** Every entry of the plan is a handled audio file with its frames. */
  predicate Planned(plan: Dict<Frames>) {
    forall k :: 0 <= k < |plan| ==>
      NameOk(plan[k].0) && IsAudioFile(plan[k].0) && plan[k].1 == FramesFor(plan[k].0)
  }

  lemma PlanNext(plan: Dict<Frames>, file: string)
    requires Planned(plan) && NameOk(file) && IsAudioFile(file)
    ensures Planned(plan + [(file, FramesFor(file))])
  {
    var r := plan + [(file, FramesFor(file))];
    forall k | 0 <= k < |r|
      ensures NameOk(r[k].0) && IsAudioFile(r[k].0) && r[k].1 == FramesFor(r[k].0)
    {
      if k < |plan| {
        assert r[k] == plan[k];
      }
    }
  }

  /** The folder walk: visits the listing in order, skips non-audio files and
      plans the frames for every audio file; `updated` counts them (no tag
      library error is modelled). */
  method PlanFolder(files: seq<string>) returns (plan: Dict<Frames>, updated: nat)
    requires ListingOk(files)
    ensures updated == |plan|
    ensures Keys(plan) == AudioFiles(files)
    ensures forall k :: 0 <= k < |plan| ==> NameOk(plan[k].0) && IsAudioFile(plan[k].0)
    ensures forall k :: 0 <= k < |plan| ==> plan[k].1 == FramesFor(plan[k].0)
  {
    plan := [];
    updated := 0;
    var i := 0;
    while i < |files|
      invariant 0 <= i <= |files|
      invariant Keys(plan) == AudioFiles(files[..i])
      invariant Planned(plan)
      invariant updated == |plan|
    {
      var file := files[i];
      AudioFilesStep(files, i);
      if IsAudioFile(file) {
        var frames := FramesFor(file);
        KeysAppend(plan, file, frames);
        PlanNext(plan, file);
        plan := plan + [(file, frames)];
        updated := updated + 1;
      }
      i := i + 1;
    }
    assert files[..|files|] == files;
  }
}

=== FILE: wrappers.dfy ===
/** Optional values, standing in for Python's `None`. */
module Wrappers {

  datatype Option<+T> = None | Some(value: T) {

    /** The wrapped value, or `default` when there is none. */
    function GetOr(default: T): T {
      match this
      case Some(v) => v
      case None => default
    }
  }
}
